=== FILE: README.md ===
# WebServerLite request dispatch, modelled in Dafny

This project models the request-dispatch core of the WebServerLite host and
proves properties of that model. The core has two parts:

- `ControllerBase`: the per-controller pipeline. A controller claims a request
  whose controller name is a prefix of its type name. It picks the first
  action with the requested name that supports the HTTP verb, and checks the
  user's roles. It binds the arguments, either by position from the URL
  values or by name from the form fields. By-name binding recurses into
  composite types under dotted prefixes. The action is then invoked and its
  result rendered with the site's view. With a response sink that never
  throws, every request ends in exactly one outcome: a body, `NotFound`,
  `NotAllowed` or `InternalError`.
- `WebSite`: site selection and fallback. A site keeps the controllers whose
  assembly name ends with the site name. It accepts a request when it is the
  default site or the names agree. It sets the request's back-reference to
  itself, then delegates to the controller its provider picks. With no
  controller, it serves the static file under its path if the file exists,
  and answers `NotFound` otherwise.

Modules, one per concept:

| file | module | contents |
|---|---|---|
| `clr.dfy` | `Clr` | `Result`/`Option`; the exceptions; type shapes (`ClrType`, `Property`); boxed values; the reflection rule for passing a value where a type is declared |
| `text.dfy` | `Text` | ordinal `StartsWith`/`EndsWith`; trimming by a character class |
| `convert.dfy` | `Convert` | `StringToObject` and the .NET parse rules it calls for integers, booleans and characters |
| `http.dfy` | `Http` | requests, action descriptors, controllers, sites, outcomes, and the collaborators left opaque (`Oracles`) |
| `binder.dfy` | `Binder` | positional and by-name argument binding |
| `controller_base.dfy` | `ControllerBase` | controller matching, verb and role checks, action resolution, invocation, `Handle` |
| `web_site.dfy` | `WebSite` | the constructor's controller filter, `CanHandle`, `Handle` |

Reflection is replaced by explicit data:
- a controller carries its enumerated methods;
- a method carries its parameters and custom attributes;
- a composite type carries its enumerated properties, whether each property
  has a set accessor (`SetValue` also uses a non-public one), whether
  `Activator.CreateInstance` can build it, and whether it is a `Nullable<T>`,
  for which `CreateInstance` returns null.

`MethodInfo.Invoke` and `PropertyInfo.SetValue` are modelled with the checks
.NET makes before running anything:
- `Invoke` raises `TargetParameterCountException` when the argument count
  differs from the parameter count;
- a non-null argument whose runtime type differs from the declared type raises
  `ArgumentException`;
- `SetValue` on a property with no set accessor raises `ArgumentException`;
  on a null object it raises `TargetException`.

Once those checks pass, the action body runs; it is opaque
(`Oracles.invoke`). An exception it throws reaches the caller wrapped by
reflection in `TargetInvocationException`, and that wrapper is the cause the
`InternalError` outcome carries (`ControllerBase.InvocationFailureIsInternalError`).

Two consequences of where the code draws its lines in
`Thingy.WebServerLite.Api/ControllerBase.cs`:
- The call to `GetParametersFromRequest` sits inside the `try` (line 35), so
  a binding failure (a value that does not parse, a missing positional
  value) is caught like any other exception and becomes `InternalError`;
  there is no separate "bad request" outcome.
- By-name keys are built from the parameter's own name (`prefix + name`,
  lines 101 and 118), letter case included: a parameter named `address`
  reads its `City` property from the key `address.City`
  (`Binder.NestedFieldExample`).

Behaviours of the code that the model keeps as written:
- The `int` branch of `StringToObject` calls `Convert.ToUInt32` (lines
  137-140). Negative text is therefore an overflow
  (`Convert.IntRejectsNegativeText`). A successful conversion yields a boxed
  `uint`, which reflection refuses for an `int` parameter. An action with an
  `int` parameter bound from URL values therefore never runs
  (`ControllerBase.IntParameterNeverRuns`).
- Positional binding allocates one slot per URL value, not per parameter
  (line 70). A request with more URL values than the action has parameters
  always ends in `InternalError` (`ControllerBase.SurplusUrlValuesNeverRender`).
- In by-name mode only primitives and `string` are leaves (line 99).
  `DateTime` and `decimal` parameters are created as composites and filled
  property by property, although `StringToObject` has branches for them.
- A `Nullable<T>` parameter or property bound by name is created by
  `CreateInstance` as null (line 114), and null is what line 126 returns. It
  binds, always to null, unless a field names one of its enumerated
  properties; such a field sends a value to `SetValue` on null
  (`Binder.NullableExample`). The field `prefix + name` itself is never read,
  so a by-name `Nullable<T>` parameter never receives a value
  (`Binder.NullableUnreadFields`).

## Model

| member | source | states |
|---|---|---|
| Convert.ParseInteger | Thingy.WebServerLite.Api/ControllerBase.cs:137-190 | the integer `Convert.ToXxx` rule: a successful parse lies in the kind's range; every failure is a format or an overflow exception |
| Convert.ParseBool | Thingy.WebServerLite.Api/ControllerBase.cs:147-150 | `Convert.ToBoolean` succeeds exactly when the trimmed text is `True` or `False` in any letter case, and the value read matches that word; otherwise a format exception |
| Convert.Utf16Length | Thingy.WebServerLite.Api/ControllerBase.cs:202-205 | the length .NET gives a string: one code unit per character of the basic plane, two for any other, so it equals the character count exactly when every character is in the basic plane |
| Convert.ParseChar | Thingy.WebServerLite.Api/ControllerBase.cs:202-205 | `Convert.ToChar` succeeds exactly on text one UTF-16 code unit long and returns that character; anything else is a format exception |
| Convert.PrimitiveFromString | Thingy.WebServerLite.Api/ControllerBase.cs:137-205 | a primitive target converts to a value of the kind the converter boxes (an `int` target gives `uint`), inside that kind's range; `IntPtr` and `UIntPtr` are rejected (the value of each branch is stated by `Convert.ConversionBranches`) |
| Convert.StringToObject | Thingy.WebServerLite.Api/ControllerBase.cs:130-208 | strings come back unchanged; every unlisted type is an `ArgumentException`; a successful conversion is never null and has the type the branch converts to (the value and the failure of each branch are stated by `Convert.ConversionBranches`) |
| Convert.IntegerTextParses | Thingy.WebServerLite.Api/ControllerBase.cs:152-155 | integer text as `ToString()` writes it parses back to the same number when it is in range, and is an overflow otherwise |
| Convert.CanonicalIntegerRoundTrip | Thingy.WebServerLite.Api/ControllerBase.cs:152-155 | canonical integer text that parses is written back by `ToString()` as the same text |
| Convert.IntegerConversionRoundTrip | Thingy.WebServerLite.Api/ControllerBase.cs:137-190 | for every integer target, converting the text of an in-range number gives that number, boxed as the kind the branch produces |
| Convert.IntRejectsNegativeText | Thingy.WebServerLite.Api/ControllerBase.cs:137-140 | the `int` branch rejects the text of every negative number with an overflow |
| Convert.BoolTextParses | Thingy.WebServerLite.Api/ControllerBase.cs:147-150 | `Boolean.Parse` reads back what `Boolean.ToString()` writes |
| Convert.ConversionBranches | Thingy.WebServerLite.Api/ControllerBase.cs:130-208 | the result for each target: a string unchanged; an integer kind its range-checked parse, boxed as the kind it parses as, or that parse's error; `bool` and `char` the result of `Boolean.Parse` and `Convert.ToChar`; `float`, `double`, `DateTime` and `decimal` their culture parser's result; anything else an `ArgumentException` |
| Convert.BoolTextVariant | Thingy.WebServerLite.Api/ControllerBase.cs:147-150 | ` TRUE ` converts to `bool` as `true`: surrounding white space and letter case are ignored |
| Convert.BoolTextRejected | Thingy.WebServerLite.Api/ControllerBase.cs:147-150 | `yes` does not convert to `bool`; it is a `FormatException` |
| Convert.BoolRoundTrip | Thingy.WebServerLite.Api/ControllerBase.cs:147-150 | converting `True`/`False` to `bool` gives the boolean written |
| Convert.CharRoundTrip | Thingy.WebServerLite.Api/ControllerBase.cs:202-205 | converting the one-character string of a basic-plane character to `char` gives that character |
| Convert.AstralCharRejected | Thingy.WebServerLite.Api/ControllerBase.cs:202-205 | a character outside the basic plane is two code units in .NET, so its one-character string does not convert to `char` |
| Binder.ConvertFrom | Thingy.WebServerLite.Api/ControllerBase.cs:73-77 | the loop over parameters from position `i`: succeeds exactly when every remaining parameter has a value that converts, each entry is its value's conversion, and a failure names the first parameter that stops it |
| Binder.BindUrlValuesByPosition | Thingy.WebServerLite.Api/ControllerBase.cs:68-80 | succeeds exactly when there are at least as many values as parameters and each converts; the array is as long as the values, entry `i` is value `i` converted for each parameter, the rest stay null; a failure is the first parameter's conversion error, or an index error where values run out |
| Binder.BindParameterByName | Thingy.WebServerLite.Api/ControllerBase.cs:97-128 | a leaf reads the field `prefix + name`: absent gives null, present gives its conversion; a composite that cannot be created is `MissingMethodException`; a `Nullable<T>` binds to null, any other composite to an instance of its type; an instance holds no null assignments |
| Binder.CompositeBinding | Thingy.WebServerLite.Api/ControllerBase.cs:112-127 | a creatable composite binds exactly when every property binds and is set on what `CreateInstance` made, and otherwise fails with the first property's exception; on success every property binds under `prefix + name + "."`, a non-null binding occurs only for an instance and is assigned to it, and every assignment is such a binding |
| Binder.BindProperty | Thingy.WebServerLite.Api/ControllerBase.cs:118-123 | one property: its binding's exception propagates; a null binding sets nothing; a non-null one is an `ArgumentException` without a set accessor, a `TargetException` on a null object, an `ArgumentException` when the value's type is not the property's, and is set otherwise |
| Binder.FailureShifts | Thingy.WebServerLite.Api/ControllerBase.cs:116-124 | after a first property that binds and is set, the loop's first failure in the remaining properties is its first failure overall, one place on |
| Binder.BindProperties | Thingy.WebServerLite.Api/ControllerBase.cs:116-124 | the property loop succeeds exactly when every property binds and is set, and otherwise fails with the exception of the first property that does not; every assignment made belongs to a settable property whose binding produced that non-null value of an accepted type; every property whose binding is non-null is assigned |
| Binder.BindFrom | Thingy.WebServerLite.Api/ControllerBase.cs:88-92 | the by-name loop from position `i`: succeeds exactly when every remaining parameter binds; each entry is its parameter's binding; a failure names the first one that fails |
| Binder.BindFieldsByName | Thingy.WebServerLite.Api/ControllerBase.cs:82-95 | one entry per parameter, each its by-name binding with an empty prefix; succeeds exactly when every parameter binds |
| Binder.GetParametersFromRequest | Thingy.WebServerLite.Api/ControllerBase.cs:56-66 | with URL values the arguments number as many as the values, and fewer values than parameters fails; without them there is one argument per parameter |
| Binder.PositionalIgnoresFields | Thingy.WebServerLite.Api/ControllerBase.cs:58-61 | with URL values present the mode is positional and the form fields are never read |
| Binder.ByNameWithoutUrlValues | Thingy.WebServerLite.Api/ControllerBase.cs:56-66 | without URL values the mode is by name: the arguments are the form-field binding of the parameters, which succeeds exactly when every parameter binds |
| Binder.ByNameReadsOnlyItsPath | Thingy.WebServerLite.Api/ControllerBase.cs:97-128 | by-name binding of a parameter reads only fields whose key starts with its own dotted path: two field maps that agree there bind it alike |
| Binder.PropertiesReadOnlyTheirPath | Thingy.WebServerLite.Api/ControllerBase.cs:116-124 | the properties of a composite read only fields under the composite's prefix |
| Binder.CompositeWithoutPropertiesIsDefault | Thingy.WebServerLite.Api/ControllerBase.cs:112-127 | a creatable composite with no enumerated properties binds whatever the fields: to a default instance, or to null for a `Nullable<T>` |
| Binder.NullableExample | Thingy.WebServerLite.Api/ControllerBase.cs:112-127 | an `int?` parameter binds to null with no field under its path, and a field for its get-only `HasValue` property is an `ArgumentException` |
| Binder.NullableUnreadFields | Thingy.WebServerLite.Api/ControllerBase.cs:97-127 | an `int?` parameter `n` binds to null from the field `n = 5` and from `n.Foo = x`: neither is read |
| Binder.NestedFieldExample | Thingy.WebServerLite.Api/ControllerBase.cs:97-128 | the field `address.City` fills `City` of an `address` parameter and leaves `Zip` at its default |
| Binder.PositionalExample | Thingy.WebServerLite.Api/ControllerBase.cs:68-80 | `(string name, int age)` bound from `Alice/30` gives the name and a boxed `uint` 30; from `Alice` alone it is an index error |
| ControllerBase.CanHandle | Thingy.WebServerLite.Api/ControllerBase.cs:20-23 | true exactly when the requested controller name is a prefix of the controller's type name |
| ControllerBase.CanHandlePrefixClosed | Thingy.WebServerLite.Api/ControllerBase.cs:20-23 | shortening the requested name keeps every controller it matched; the empty name matches every controller |
| ControllerBase.CanHandleExamples | Thingy.WebServerLite.Api/ControllerBase.cs:20-23 | `Users` is claimed by `UsersController` and not by `UserController` or `usersController`, since the comparison is case-sensitive; a longer request name is not claimed |
| ControllerBase.SupportsHttpMethod | Thingy.WebServerLite.Api/ControllerBase.cs:217-220 | a method supports a verb exactly when one of its `HttpMethodAttribute`s names it; without such attributes it supports none |
| ControllerBase.DeclaredRoles | Thingy.WebServerLite.Api/ControllerBase.cs:212 | the roles of the `AuthorizedRoleAttribute`s, none exactly when the method has no such attribute |
| ControllerBase.UserAuthorized | Thingy.WebServerLite.Api/ControllerBase.cs:210-215 | allowed exactly when the method declares no role, or the user holds at least one declared role |
| ControllerBase.AnyDeclaredRoleAuthorizes | Thingy.WebServerLite.Api/ControllerBase.cs:214 | roles combine by "or": holding any one declared role authorizes, and holding none of them does not |
| ControllerBase.FindAction | Thingy.WebServerLite.Api/ControllerBase.cs:27 | the position found is the first method, in enumeration order, with the requested name that supports the verb; nothing is found exactly when no method does |
| ControllerBase.ResolutionByVerbExample | Thingy.WebServerLite.Api/ControllerBase.cs:27 | two `List` actions are told apart by verb; a method without verb attributes is never chosen; verbs compare case-sensitively |
| ControllerBase.Invoke | Thingy.WebServerLite.Api/ControllerBase.cs:36 | the wrong argument count is `TargetParameterCountException`; an argument of another type is `ArgumentException`; only a fully accepted argument list runs the action, whose result is returned and whose exception comes back wrapped in `TargetInvocationException` |
| ControllerBase.Execute | Thingy.WebServerLite.Api/ControllerBase.cs:33-39 | a binding failure is the result; otherwise an invocation failure is; a request without its site is a `NullReferenceException`; otherwise the result is the site's rendering of what the action returned |
| ControllerBase.Handle | Thingy.WebServerLite.Api/ControllerBase.cs:25-54 | `NotFound` exactly when no action matches; `NotAllowed` exactly when the first match denies the user; otherwise the rendered body or the `InternalError` of whatever binding, invocation or rendering raised; never a file |
| ControllerBase.UnresolvedInvokesNothing | Thingy.WebServerLite.Api/ControllerBase.cs:50-53 | with no matching action the outcome is `NotFound` whatever the action, view and converters would do |
| ControllerBase.DeniedInvokesNothing | Thingy.WebServerLite.Api/ControllerBase.cs:45-48 | a denied request is `NotAllowed` whatever the action, view and converters would do |
| ControllerBase.HandleIgnoresFileSystem | Thingy.WebServerLite.Api/ControllerBase.cs:25-54 | a controller's handling reads only the converters, the action and the view: changing the file system or the controller provider changes nothing |
| ControllerBase.ExecuteIgnoresFileSystem | Thingy.WebServerLite.Api/ControllerBase.cs:33-39 | running one action reads only the converters, the action and the view |
| ControllerBase.EmptyEnumerationIsNotFound | Thingy.WebServerLite.Api/ControllerBase.cs:27 | a controller whose enumeration yields no methods answers `NotFound` to everything |
| ControllerBase.BindingFailureIsInternalError | Thingy.WebServerLite.Api/ControllerBase.cs:33-43 | a binding failure for an authorized action ends in `InternalError` carrying that failure |
| ControllerBase.InvocationFailureIsInternalError | Thingy.WebServerLite.Api/ControllerBase.cs:33-43 | when an authorized action's arguments bind and are accepted but its body throws, the outcome is `InternalError` carrying the `TargetInvocationException` that wraps the body's exception |
| ControllerBase.SurplusUrlValuesNeverRender | Thingy.WebServerLite.Api/ControllerBase.cs:68-80 | more URL values than parameters always ends in `InternalError` |
| ControllerBase.IntParameterNeverRuns | Thingy.WebServerLite.Api/ControllerBase.cs:137-140 | an action with an `int` parameter, bound from URL values, always ends in `InternalError` |
| ControllerBase.UnboundRequestNeverRenders | Thingy.WebServerLite.Api/ControllerBase.cs:37 | without its site back-reference a request never produces a body |
| ControllerBase.SingleStringBinds | Thingy.WebServerLite.Api/ControllerBase.cs:68-80 | a single `string` parameter bound from one URL value receives that value unchanged |
| ControllerBase.EndToEndExample | Thingy.WebServerLite.Api/ControllerBase.cs:25-54 | `GET Users/Get/alice` runs `Get("alice")` and renders its result with the site's view; an exception from the action becomes an `InternalError` carrying its `TargetInvocationException` wrapper, one from the view an `InternalError` carrying it as is |
| WebSite.OwnControllers | Thingy.WebServerLite/WebSite.cs:23 | the kept controllers are exactly those of the input whose assembly name ends with the site name, as many as there are |
| WebSite.New | Thingy.WebServerLite/WebSite.cs:18-27 | a new site keeps its name, port and path, is not the default, has normal priority and owns exactly the controllers whose assembly name ends with its name |
| WebSite.OwnControllersAppend | Thingy.WebServerLite/WebSite.cs:23 | the filter distributes over concatenation, so the kept controllers stay in their original order |
| WebSite.OwnControllersSingle | Thingy.WebServerLite/WebSite.cs:23 | a single controller is kept exactly when the site owns it |
| WebSite.OwnControllersIdempotent | Thingy.WebServerLite/WebSite.cs:23 | filtering the kept controllers again keeps them all |
| WebSite.OwnControllersExample | Thingy.WebServerLite/WebSite.cs:18-27 | sites `Users` and `Admin` split `Demo.Users`/`Demo.Admin` controllers between them, in order |
| WebSite.CanHandle | Thingy.WebServerLite/WebSite.cs:37-40 | the default site accepts every request; any other site accepts a request exactly when it is addressed to the site's name |
| WebSite.DefaultAndNamedSiteOverlap | Thingy.WebServerLite/WebSite.cs:37-40 | acceptance does not single out one site: among any sites, the one a request is addressed to and every default site accept it, and no other site does |
| WebSite.NewSiteAcceptsOnlyItsName | Thingy.WebServerLite/WebSite.cs:18-40 | a newly built site accepts exactly the requests addressed to its name |
| WebSite.SelectionReadsOnlySiteName | Thingy.WebServerLite/WebSite.cs:37-40 | site selection depends on nothing of the request but its site name |
| WebSite.Bind | Thingy.WebServerLite/WebSite.cs:44 | the request passed on refers to the site and is otherwise unchanged |
| WebSite.Handle | Thingy.WebServerLite/WebSite.cs:42-65 | with a controller, the outcome is that controller's handling of the bound request; without one, a file at the combined path exactly when it exists, and `NotFound` otherwise |
| WebSite.BackReferenceBeforeDelegation | Thingy.WebServerLite/WebSite.cs:42-46 | whatever back-reference the request held before, the outcome is the same |
| WebSite.ControllerFoundSkipsFileLookup | Thingy.WebServerLite/WebSite.cs:46-51 | when a controller is found, the file system is never consulted |
| WebSite.NoControllerServesFileOrNotFound | Thingy.WebServerLite/WebSite.cs:52-64 | without a controller the outcome is a file or `NotFound`, and actions and views play no part |
| WebSite.DelegatedActionRenders | Thingy.WebServerLite/WebSite.cs:44-50 | through a site, an authorized action that binds and runs is rendered with that site's view, and its body is the outcome |

## Left out

- Reflection is not modelled. The method list, attribute lists, property
  lists and constructibility are inputs. Taken literally,
  `GetMethods(BindingFlags.Public)` and
  `GetProperties(BindingFlags.Public | BindingFlags.FlattenHierarchy)`
  (neither with `Instance`) enumerate nothing. That reading is the empty input:
  `ControllerBase.EmptyEnumerationIsNotFound` and
  `Binder.CompositeWithoutPropertiesIsDefault`.
- Reflection's widening of primitive arguments and inheritance-based
  assignability are not modelled. A value is accepted only with exactly the
  declared type, or null.
- `Convert.ToSingle`, `ToDouble`, `ToDecimal` and `ToDateTime` are opaque
  culture-dependent parsers (`Oracles.culture`), because floating point and
  culture data are outside the model.
- Convert.ParseBool: case folding covers ASCII letters only, because .NET's
  invariant case-insensitive comparison of other letters is not modelled.
- Convert.ParseInteger: its own contract states only the range of a result
  and the two kinds of failure. Which texts it accepts is stated by
  `Convert.IntegerTextParses` and `Convert.CanonicalIntegerRoundTrip`, and
  the text it reads is not characterised beyond them.
- Convert.ParseChar: strings are sequences of Unicode scalar values, so a
  string holding a lone surrogate cannot be written; .NET's UTF-16 length is
  modelled only where `Convert.ToChar` reads it (`Convert.Utf16Length`).
- Convert.ParseInteger: trailing NUL characters are not accepted, the sign is
  the invariant culture's `-`/`+`, and hexadecimal or culture-specific signs
  are not modelled.
- `StartsWith` and `EndsWith` are compared ordinally. The source's
  culture-sensitive comparisons agree on ordinary identifiers, and culture
  collation is not modelled.
- Type shapes are finite trees. A type whose properties lead back to itself
  (a `DateTime` parameter bound by name recurses through its `Date` property)
  cannot be written, so the non-terminating recursion it causes is not
  modelled.
- Null requests, null URL-value arrays, null field maps and a null user are
  not modelled.
- The action body, the view provider and renderer, the controller provider
  (`GetControllerForRequest`), `Path.Combine` and `File.Exists` are opaque
  collaborators (`Oracles`). Their code is not part of this model. Exceptions
  they raise outside the `try` (in `WebSite.Handle`) are not modelled.
- Binder.BindParameterByName: whether `Activator.CreateInstance` succeeds is
  a flag per type. A default constructor or a property setter that itself
  throws (reflection wraps that in `TargetInvocationException`) is not
  modelled.
- The response sink (`FromString`, `FromFile`, `NotFound`, `NotAllowed`,
  `InternalError`) is assumed never to throw. Its code is not part of this
  model. `FromString` is called inside the `try` (line 38), so a sink that
  failed there, perhaps after writing part of the body, would also receive
  `InternalError`; that double response is not modelled.
- The controller the provider returns is always handled as a
  `ControllerBase`. Other implementations of `IController` are not part of
  this model.
- The `Priority` of a controller (set to `Normal` by the `ControllerBase`
  constructor) has no state in the model, because no modelled code reads it.
  A site's priority is recorded.
- Concurrency, the listener and the transport are outside the core.

=== FILE: binder.dfy ===
/** Argument binding: turning a request's URL values or form fields into the
    argument array of an action, positionally or by name. */
module Binder {
  import opened Clr
  import opened Http
  import Convert
  import Text

  // ----- Positional mode -----

  /** Every parameter before position `k` has a URL value, and that value
      converts to the parameter's type. */
  predicate ConvertsBefore(params: seq<Parameter>, values: seq<string>, culture: CultureParser, k: int)
    requires k <= |params|
  {
    && k <= |values|
    && forall j :: 0 <= j < k ==> Convert.StringToObject(values[j], params[j].ty, culture).Ok?
  }

  /** Position `k` is where positional binding stops with exception `e`:
      every earlier parameter had a value that converted, and parameter `k`
      either has no value (an index error) or its value does not convert. */
  predicate PositionalFailsAt(params: seq<Parameter>, values: seq<string>, culture: CultureParser, k: int, e: Exception) {
    && 0 <= k < |params|
    && ConvertsBefore(params, values, culture, k)
    && (if k < |values| then Convert.StringToObject(values[k], params[k].ty, culture) == Err(e)
        else e == IndexOutOfRangeException)
  }

  /** The loop of `BindUrlValuesByPosition` from parameter `i` on, once
      the parameters before `i` have converted: entry `j` is `values[j]`
      converted to the type of parameter `j`; a parameter without a value is
      an index error. */
  function ConvertFrom(params: seq<Parameter>, values: seq<string>, culture: CultureParser, i: nat): (r: Result<seq<Value>>)
    requires i <= |params|
    requires ConvertsBefore(params, values, culture, i)
    decreases |params| - i
    ensures r.Ok? <==>
      i == |params| ||
      (|params| <= |values| && forall j :: i <= j < |params| ==> Convert.StringToObject(values[j], params[j].ty, culture).Ok?)
    ensures r.Ok? ==>
      && |r.value| == |params| - i
      && (i < |params| ==> |params| <= |values|)
      && forall j :: 0 <= j < |r.value| ==> Convert.StringToObject(values[i + j], params[i + j].ty, culture) == Ok(r.value[j])
    ensures r.Err? ==> exists k :: i <= k && PositionalFailsAt(params, values, culture, k, r.error)
  {
    if i == |params| then Ok([])
    else if i == |values| then
      assert PositionalFailsAt(params, values, culture, i, IndexOutOfRangeException);
      Err(IndexOutOfRangeException)
    else
      var head := Convert.StringToObject(values[i], params[i].ty, culture);
      if head.Err? then
        assert PositionalFailsAt(params, values, culture, i, head.error);
        Err(head.error)
      else
        ConvertsExtend(params, values, culture, i);
        var tail := ConvertFrom(params, values, culture, i + 1);
        if tail.Err? then Err(tail.error)
        else
          var converted := [head.value] + tail.value;
          ConvertedCons(params, values, culture, i, head.value, tail.value);
          Ok(converted)
  }

  /** One more parameter converted extends `ConvertsBefore` by one. */
  lemma ConvertsExtend(params: seq<Parameter>, values: seq<string>, culture: CultureParser, i: nat)
    requires i < |params| && i < |values|
    requires ConvertsBefore(params, values, culture, i)
    requires Convert.StringToObject(values[i], params[i].ty, culture).Ok?
    ensures ConvertsBefore(params, values, culture, i + 1)
  {
    forall j | 0 <= j < i + 1
      ensures Convert.StringToObject(values[j], params[j].ty, culture).Ok?
    {
      if j < i {
        assert ConvertsBefore(params, values, culture, i);
      }
    }
  }

  /** Converting parameter `i` in front of the conversions from `i + 1` on
      gives the conversions from `i` on. */
  lemma ConvertedCons(params: seq<Parameter>, values: seq<string>, culture: CultureParser, i: nat, head: Value, tail: seq<Value>)
    requires i + 1 + |tail| <= |params| && i + 1 + |tail| <= |values|
    requires Convert.StringToObject(values[i], params[i].ty, culture) == Ok(head)
    requires forall j :: 0 <= j < |tail| ==> Convert.StringToObject(values[i + 1 + j], params[i + 1 + j].ty, culture) == Ok(tail[j])
    ensures forall j :: 0 <= j < 1 + |tail| ==>
      Convert.StringToObject(values[i + j], params[i + j].ty, culture) == Ok(([head] + tail)[j])
  {
    forall j | 0 <= j < 1 + |tail|
      ensures Convert.StringToObject(values[i + j], params[i + j].ty, culture) == Ok(([head] + tail)[j])
    {
      if j > 0 {
        assert ([head] + tail)[j] == tail[j - 1];
        assert i + j == i + 1 + (j - 1);
      }
    }
  }

  /** `BindUrlValuesByPosition`: an array as long as the URL values, the
      first `|params|` entries converted to the parameter types and the rest
      left null; more parameters than values is an index error. */
  function BindUrlValuesByPosition(params: seq<Parameter>, values: seq<string>, culture: CultureParser): (r: Result<seq<Value>>)
    ensures r.Ok? <==>
      |params| <= |values| && forall i :: 0 <= i < |params| ==> Convert.StringToObject(values[i], params[i].ty, culture).Ok?
    ensures r.Ok? ==> |params| <= |values| && |r.value| == |values|
    ensures r.Ok? ==> forall i :: 0 <= i < |params| ==> Convert.StringToObject(values[i], params[i].ty, culture) == Ok(r.value[i])
    ensures r.Ok? ==> forall i :: |params| <= i < |values| ==> r.value[i] == Null
    ensures r.Err? ==> exists k :: PositionalFailsAt(params, values, culture, k, r.error)
  {
    var converted :- ConvertFrom(params, values, culture, 0);
    Ok(converted + seq(|values| - |params|, _ => Null))
  }

  // ----- By-name mode -----

  /** `BindParameterByName(type, name, request, prefix)`. A leaf (primitive
      or string) reads the field `prefix + name`; anything else is created
      with `Activator.CreateInstance` and each enumerated property is bound
      under the prefix `prefix + name + "."` and set on what was created.
      For a `Nullable<T>` that is null, and null is what the binding yields. */
  function BindParameterByName(t: ClrType, name: string, fields: map<string, string>, prefix: string, culture: CultureParser): (r: Result<Value>)
    decreases t, 2
    ensures t.IsLeaf() && prefix + name !in fields ==> r == Ok(Null)
    ensures t.IsLeaf() && prefix + name in fields ==> r == Convert.StringToObject(fields[prefix + name], t, culture)
    ensures !t.IsLeaf() && !t.creatable ==> r == Err(MissingMethodException)
    ensures !t.IsLeaf() && t.nullable && r.Ok? ==> r.value == Null
    ensures !t.IsLeaf() && !t.nullable && r.Ok? ==> r.value.Instance? && r.value.ty == t
    ensures r.Ok? && r.value.Instance? ==> forall a :: a in r.value.assignments ==> a.value != Null
  {
    if t.IsLeaf() then
      var key := prefix + name;
      if key in fields then Convert.StringToObject(fields[key], t, culture) else Ok(Null)
    else if !t.creatable then Err(MissingMethodException)
    else
      var assignments :- BindProperties(t.props, fields, prefix + name + ".", culture, t.nullable);
      if t.nullable then Ok(Null) else Ok(Instance(t, assignments))
  }

  /** A composite parameter is what its properties make of the created
      object: it binds exactly when every enumerated property binds and is
      set, the first property that does not decides the exception, and
      nothing is assigned but the properties' non-null bindings. An instance
      receives each of them; a `Nullable<T>` binds (to null) only when no
      property has a value. */
  lemma CompositeBinding(t: ClrType, name: string, fields: map<string, string>, prefix: string, culture: CultureParser)
    requires !t.IsLeaf() && t.creatable
    ensures
      var r := BindParameterByName(t, name, fields, prefix, culture);
      var inner := prefix + name + ".";
      && (r.Ok? <==> forall p :: p in t.props ==> BindProperty(p, fields, inner, culture, t.nullable).Ok?)
      && (r.Err? ==> exists k :: PropertyFailsAt(t.props, fields, inner, culture, t.nullable, k, r.error))
      && (r.Ok? ==> forall p :: p in t.props ==>
            && BindParameterByName(p.ty, p.name, fields, inner, culture).Ok?
            && (BindParameterByName(p.ty, p.name, fields, inner, culture).value != Null ==>
                  && !t.nullable
                  && Assignment(p.name, BindParameterByName(p.ty, p.name, fields, inner, culture).value) in r.value.assignments))
      && (r.Ok? && !t.nullable ==> forall a :: a in r.value.assignments ==>
            exists p :: p in t.props && p.name == a.property && p.settable && Assignable(a.value, p.ty)
                        && BindParameterByName(p.ty, p.name, fields, inner, culture) == Ok(a.value))
  {
  }

  /** One turn of the property loop: bind the property, and call `SetValue`
      on the created object only for a non-null result. `SetValue` throws
      `ArgumentException` when the property has no setter, then
      `TargetException` when the object is null (`nullTarget`), then
      `ArgumentException` when the value's type is not the property's. */
  function BindProperty(p: Property, fields: map<string, string>, prefix: string, culture: CultureParser, nullTarget: bool): (r: Result<seq<Assignment>>)
    decreases p, 0
    ensures BindParameterByName(p.ty, p.name, fields, prefix, culture).Err? ==>
      r == Err(BindParameterByName(p.ty, p.name, fields, prefix, culture).error)
    ensures BindParameterByName(p.ty, p.name, fields, prefix, culture) == Ok(Null) ==> r == Ok([])
    ensures BindParameterByName(p.ty, p.name, fields, prefix, culture).Ok? ==>
      var v := BindParameterByName(p.ty, p.name, fields, prefix, culture).value;
      v != Null ==>
        && (!p.settable ==> r == Err(ArgumentException))
        && (p.settable && nullTarget ==> r == Err(TargetException))
        && (p.settable && !nullTarget && !Assignable(v, p.ty) ==> r == Err(ArgumentException))
        && (p.settable && !nullTarget && Assignable(v, p.ty) ==> r == Ok([Assignment(p.name, v)]))
  {
    var v :- BindParameterByName(p.ty, p.name, fields, prefix, culture);
    if v == Null then Ok([])
    else if !p.settable then Err(ArgumentException)
    else if nullTarget then Err(TargetException)
    else if !Assignable(v, p.ty) then Err(ArgumentException)
    else Ok([Assignment(p.name, v)])
  }

  /** Property `k` is where the property loop stops with exception `e`:
      every earlier property was bound and set, and property `k` was not. */
  predicate PropertyFailsAt(props: seq<Property>, fields: map<string, string>, prefix: string, culture: CultureParser, nullTarget: bool, k: int, e: Exception)
    decreases props, 0
  {
    && 0 <= k < |props|
    && (forall j :: 0 <= j < k ==> BindProperty(props[j], fields, prefix, culture, nullTarget).Ok?)
    && BindProperty(props[k], fields, prefix, culture, nullTarget) == Err(e)
  }

  /** The loop over a type's enumerated properties, in order; the first
      exception ends it. */
  function BindProperties(props: seq<Property>, fields: map<string, string>, prefix: string, culture: CultureParser, nullTarget: bool): (r: Result<seq<Assignment>>)
    decreases props, 2
    ensures r.Ok? <==> forall p :: p in props ==> BindProperty(p, fields, prefix, culture, nullTarget).Ok?
    ensures r.Err? ==> exists k :: PropertyFailsAt(props, fields, prefix, culture, nullTarget, k, r.error)
    ensures r.Ok? ==> |r.value| <= |props|
    ensures r.Ok? ==> forall a :: a in r.value ==>
      && !nullTarget
      && a.value != Null
      && exists p :: p in props && p.name == a.property && p.settable && Assignable(a.value, p.ty)
                     && BindParameterByName(p.ty, p.name, fields, prefix, culture) == Ok(a.value)
    ensures r.Ok? ==> forall p :: p in props ==>
      && BindParameterByName(p.ty, p.name, fields, prefix, culture).Ok?
      && (BindParameterByName(p.ty, p.name, fields, prefix, culture).value != Null ==>
            && !nullTarget
            && Assignment(p.name, BindParameterByName(p.ty, p.name, fields, prefix, culture).value) in r.value)
  {
    if |props| == 0 then Ok([])
    else
      var p := props[0];
      var here := BindProperty(p, fields, prefix, culture, nullTarget);
      assert forall q :: q in props <==> q == p || q in props[1..];
      if here.Err? then
        assert props[0] in props;
        assert PropertyFailsAt(props, fields, prefix, culture, nullTarget, 0, here.error);
        Err(here.error)
      else
        var rest := BindProperties(props[1..], fields, prefix, culture, nullTarget);
        if rest.Err? then
          var k :| PropertyFailsAt(props[1..], fields, prefix, culture, nullTarget, k, rest.error);
          FailureShifts(props, fields, prefix, culture, nullTarget, k, rest.error);
          Err(rest.error)
        else
          var made := here.value + rest.value;
          assert forall a :: a in made <==> a in here.value || a in rest.value;
          Ok(made)
  }

  /** A failure in the tail of the property list, after a first property
      that was bound and set, is a failure of the whole list one place on. */
  lemma FailureShifts(props: seq<Property>, fields: map<string, string>, prefix: string, culture: CultureParser, nullTarget: bool, k: int, e: Exception)
    requires |props| > 0 && BindProperty(props[0], fields, prefix, culture, nullTarget).Ok?
    requires PropertyFailsAt(props[1..], fields, prefix, culture, nullTarget, k, e)
    ensures PropertyFailsAt(props, fields, prefix, culture, nullTarget, k + 1, e)
    decreases props, 1
  {
    forall j | 0 <= j < k + 1
      ensures BindProperty(props[j], fields, prefix, culture, nullTarget).Ok?
    {
      if j > 0 {
        assert props[j] == props[1..][j - 1];
      }
    }
    assert props[k + 1] == props[1..][k];
  }

  /** Every parameter before position `k` binds by name without an exception. */
  predicate BindsBefore(params: seq<Parameter>, fields: map<string, string>, culture: CultureParser, k: int)
    requires k <= |params|
  {
    forall j :: 0 <= j < k ==> BindParameterByName(params[j].ty, params[j].name, fields, "", culture).Ok?
  }

  /** Position `k` is where by-name binding stops with exception `e`. */
  predicate ByNameFailsAt(params: seq<Parameter>, fields: map<string, string>, culture: CultureParser, k: int, e: Exception) {
    && 0 <= k < |params|
    && BindsBefore(params, fields, culture, k)
    && BindParameterByName(params[k].ty, params[k].name, fields, "", culture) == Err(e)
  }

  /** The loop of `BindFieldsByName` from parameter `i` on, once the
      parameters before `i` have bound. */
  function BindFrom(params: seq<Parameter>, fields: map<string, string>, culture: CultureParser, i: nat): (r: Result<seq<Value>>)
    requires i <= |params|
    requires BindsBefore(params, fields, culture, i)
    decreases |params| - i
    ensures r.Ok? <==>
      forall j :: i <= j < |params| ==> BindParameterByName(params[j].ty, params[j].name, fields, "", culture).Ok?
    ensures r.Ok? ==>
      |r.value| == |params| - i &&
      forall j :: 0 <= j < |r.value| ==> BindParameterByName(params[i + j].ty, params[i + j].name, fields, "", culture) == Ok(r.value[j])
    ensures r.Err? ==> exists k :: i <= k && ByNameFailsAt(params, fields, culture, k, r.error)
  {
    if i == |params| then Ok([])
    else
      var head := BindParameterByName(params[i].ty, params[i].name, fields, "", culture);
      if head.Err? then
        assert ByNameFailsAt(params, fields, culture, i, head.error);
        Err(head.error)
      else
        BindsExtend(params, fields, culture, i);
        var tail := BindFrom(params, fields, culture, i + 1);
        if tail.Err? then Err(tail.error)
        else
          var bound := [head.value] + tail.value;
          assert forall j :: 1 <= j < |bound| ==> bound[j] == tail.value[j - 1];
          Ok(bound)
  }

  /** One more parameter bound extends `BindsBefore` by one. */
  lemma BindsExtend(params: seq<Parameter>, fields: map<string, string>, culture: CultureParser, i: nat)
    requires i < |params|
    requires BindsBefore(params, fields, culture, i)
    requires BindParameterByName(params[i].ty, params[i].name, fields, "", culture).Ok?
    ensures BindsBefore(params, fields, culture, i + 1)
  {
  }

  /** `BindFieldsByName`: one entry per parameter, each bound by name with an
      empty prefix; the first parameter that fails to bind decides the
      exception. */
  function BindFieldsByName(params: seq<Parameter>, fields: map<string, string>, culture: CultureParser): (r: Result<seq<Value>>)
    ensures r.Ok? <==> forall i :: 0 <= i < |params| ==> BindParameterByName(params[i].ty, params[i].name, fields, "", culture).Ok?
    ensures r.Ok? ==>
      |r.value| == |params| &&
      forall i :: 0 <= i < |params| ==> BindParameterByName(params[i].ty, params[i].name, fields, "", culture) == Ok(r.value[i])
    ensures r.Err? ==> exists k :: ByNameFailsAt(params, fields, culture, k, r.error)
  {
    BindFrom(params, fields, culture, 0)
  }

  /** `GetParametersFromRequest`: positional when the request carries any
      URL values, by name otherwise. */
  function GetParametersFromRequest(m: ActionMethod, r: Request, culture: CultureParser): (args: Result<seq<Value>>)
    ensures |r.urlValues| > 0 && args.Ok? ==> |args.value| == |r.urlValues|
    ensures |r.urlValues| == 0 && args.Ok? ==> |args.value| == |m.parameters|
    ensures |r.urlValues| > 0 && |m.parameters| > |r.urlValues| ==> args.Err?
  {
    if |r.urlValues| > 0 then BindUrlValuesByPosition(m.parameters, r.urlValues, culture)
    else BindFieldsByName(m.parameters, r.fields, culture)
  }

  /** With URL values present the form fields are never read; without them
      the URL values (there are none) play no part. */
  lemma PositionalIgnoresFields(m: ActionMethod, r: Request, fields: map<string, string>, culture: CultureParser)
    requires |r.urlValues| > 0
    ensures GetParametersFromRequest(m, r, culture) == GetParametersFromRequest(m, r.(fields := fields), culture)
    ensures GetParametersFromRequest(m, r, culture) == BindUrlValuesByPosition(m.parameters, r.urlValues, culture)
  {
  }

  /** Without URL values the mode is by name: each parameter is bound from
      the form fields. */
  lemma ByNameWithoutUrlValues(m: ActionMethod, r: Request, culture: CultureParser)
    requires |r.urlValues| == 0
    ensures GetParametersFromRequest(m, r, culture) == BindFieldsByName(m.parameters, r.fields, culture)
    ensures GetParametersFromRequest(m, r, culture).Ok? <==>
      forall i :: 0 <= i < |m.parameters| ==> BindParameterByName(m.parameters[i].ty, m.parameters[i].name, r.fields, "", culture).Ok?
  {
  }

  // ----- Properties of by-name binding -----

  /** `f` and `g` hold the same entries under every key starting with `p`. */
  ghost predicate AgreeUnder(f: map<string, string>, g: map<string, string>, p: string) {
    forall k :: Text.StartsWith(k, p) ==> (k in f <==> k in g) && (k in f ==> f[k] == g[k])
  }

  /** Agreement under a prefix implies agreement under any longer prefix. */
  lemma AgreeNarrows(f: map<string, string>, g: map<string, string>, p: string, s: string)
    requires AgreeUnder(f, g, p)
    ensures AgreeUnder(f, g, p + s)
  {
    forall k | Text.StartsWith(k, p + s)
      ensures Text.StartsWith(k, p)
    {
      assert k[..|p|] == (p + s)[..|p|] == p;
    }
  }

  /** By-name binding reads only the fields whose keys start with the dotted
      path of the value being bound: two field maps that agree there bind
      the same value. */
  lemma {:induction false} ByNameReadsOnlyItsPath(
    t: ClrType, name: string, f: map<string, string>, g: map<string, string>, prefix: string, culture: CultureParser)
    requires AgreeUnder(f, g, prefix + name)
    ensures BindParameterByName(t, name, f, prefix, culture) == BindParameterByName(t, name, g, prefix, culture)
    decreases t, 2
  {
    if t.IsLeaf() {
      assert Text.StartsWith(prefix + name, prefix + name);
    } else if t.creatable {
      AgreeNarrows(f, g, prefix + name, ".");
      PropertiesReadOnlyTheirPath(t.props, f, g, prefix + name + ".", culture, t.nullable);
    }
  }

  lemma {:induction false} PropertiesReadOnlyTheirPath(
    props: seq<Property>, f: map<string, string>, g: map<string, string>, prefix: string, culture: CultureParser,
    nullTarget: bool)
    requires AgreeUnder(f, g, prefix)
    ensures BindProperties(props, f, prefix, culture, nullTarget) == BindProperties(props, g, prefix, culture, nullTarget)
    decreases props, 0
  {
    if |props| > 0 {
      AgreeNarrows(f, g, prefix, props[0].name);
      ByNameReadsOnlyItsPath(props[0].ty, props[0].name, f, g, prefix, culture);
      PropertiesReadOnlyTheirPath(props[1..], f, g, prefix, culture, nullTarget);
    }
  }

  /** A creatable composite with no enumerated properties binds whatever the
      fields hold: to an instance left at its defaults, or to null for a
      `Nullable<T>`. */
  lemma CompositeWithoutPropertiesIsDefault(t: ClrType, name: string, fields: map<string, string>, prefix: string, culture: CultureParser)
    requires t.Other? && t.creatable && t.props == []
    ensures BindParameterByName(t, name, fields, prefix, culture) == Ok(if t.nullable then Null else Instance(t, []))
  {
  }

  /** A nested field `address.City` fills the `City` property of an `address`
      parameter and leaves the unmatched `Zip` property at its default. */
  lemma NestedFieldExample(culture: CultureParser)
    ensures
      var address := Other(Named("Address"), [Property("City", Str, true), Property("Zip", Str, true)], true, false);
      BindFieldsByName([Parameter("address", address)], map["address.City" := "Paris"], culture)
        == Ok([Instance(address, [Assignment("City", TextValue("Paris"))])])
  {
    var props := [Property("City", Str, true), Property("Zip", Str, true)];
    var address := Other(Named("Address"), props, true, false);
    var fields := map["address.City" := "Paris"];
    var prefix := "address.";
    assert "" + "address" + "." == prefix;
    assert prefix + "City" == "address.City";
    assert prefix + "Zip" !in fields;
    assert props[1..][1..] == [];
    assert BindProperties([], fields, prefix, culture, false) == Ok([]);
    assert BindProperties(props[1..], fields, prefix, culture, false) == Ok([]);
    assert BindParameterByName(Str, "City", fields, prefix, culture) == Ok(TextValue("Paris"));
    var r := BindProperties(props, fields, prefix, culture, false);
    assert r.Ok?;
    assert r.value == [Assignment("City", TextValue("Paris"))];
    var bound := Instance(address, [Assignment("City", TextValue("Paris"))]);
    assert BindParameterByName(address, "address", fields, "", culture) == Ok(bound);
    var params := [Parameter("address", address)];
    var b := BindFieldsByName(params, fields, culture);
    assert b.Ok?;
    assert b.value == [bound];
  }

  /** `int?` bound by name from `n`: `CreateInstance` gives null, so it
      binds to null unless a field names one of its get-only properties
      `HasValue` and `Value`, which reaches `SetValue` and finds no setter. */
    lemma NullableExample(culture: CultureParser)
    ensures
      var intQ := Other(Named("Nullable`1"), [Property("HasValue", Primitive(Bool), false), Property("Value", Primitive(Int), false)], true, true);
      && BindParameterByName(intQ, "n", map[], "", culture) == Ok(Null)
      && BindParameterByName(intQ, "n", map["n.HasValue" := "True"], "", culture) == Err(ArgumentException)
  {
    var props := [Property("HasValue", Primitive(Bool), false), Property("Value", Primitive(Int), false)];
    var prefix := "n.";
    assert "" + "n" + "." == prefix;
    assert props[1..][1..] == [];
    var none: map<string, string> := map[];
    assert BindProperties(props, none, prefix, culture, true) == Ok([]);
    var fields := map["n.HasValue" := "True"];
    assert prefix + "HasValue" == "n.HasValue";
    Convert.BoolRoundTrip(true, culture);
    assert BindParameterByName(Primitive(Bool), "HasValue", fields, prefix, culture) == Ok(BoolValue(true));
    assert BindProperty(props[0], fields, prefix, culture, true) == Err(ArgumentException);
  }

  /** The same `int?` never receives a value: the field `n` itself, and a
      field under `n.` that names no property, are never read. */
  lemma NullableUnreadFields(culture: CultureParser)
    ensures
      var intQ := Other(Named("Nullable`1"), [Property("HasValue", Primitive(Bool), false), Property("Value", Primitive(Int), false)], true, true);
      && BindParameterByName(intQ, "n", map["n" := "5"], "", culture) == Ok(Null)
      && BindParameterByName(intQ, "n", map["n.Foo" := "x"], "", culture) == Ok(Null)
  {
    var props := [Property("HasValue", Primitive(Bool), false), Property("Value", Primitive(Int), false)];
    assert "" + "n" + "." == "n.";
    NoPropertyFieldBindsNull(props, map["n" := "5"], "n.", culture);
    NoPropertyFieldBindsNull(props, map["n.Foo" := "x"], "n.", culture);
  }

  /** Neither `HasValue` nor `Value` of `int?` is named by the fields. */
  lemma NoPropertyFieldBindsNull(props: seq<Property>, fields: map<string, string>, prefix: string, culture: CultureParser)
    requires props == [Property("HasValue", Primitive(Bool), false), Property("Value", Primitive(Int), false)]
    requires prefix == "n."
    requires prefix + "HasValue" !in fields && prefix + "Value" !in fields
    ensures BindProperties(props, fields, prefix, culture, true) == Ok([])
  {
    assert props[1..][1..] == [];
  }

  /** Positional binding of `(string name, int age)`: two values bind, the
      age boxed as `uint`; a single value is an index error. */
  lemma PositionalExample(culture: CultureParser)
    ensures
      var params := [Parameter("name", Str), Parameter("age", Primitive(Int))];
      && BindUrlValuesByPosition(params, ["Alice", "30"], culture) == Ok([TextValue("Alice"), IntValue(UInt, 30)])
      && BindUrlValuesByPosition(params, ["Alice"], culture) == Err(IndexOutOfRangeException)
  {
    var params := [Parameter("name", Str), Parameter("age", Primitive(Int))];
    ThirtyIsText();
    Convert.IntegerConversionRoundTrip(Int, 30, culture);
    var two := ["Alice", "30"];
    assert Convert.StringToObject(two[0], params[0].ty, culture) == Ok(TextValue("Alice"));
    assert Convert.StringToObject(two[1], params[1].ty, culture) == Ok(IntValue(UInt, 30));
    var r := BindUrlValuesByPosition(params, two, culture);
    assert r.Ok?;
    assert r.value == [TextValue("Alice"), IntValue(UInt, 30)];
    var r1 := BindUrlValuesByPosition(params, ["Alice"], culture);
    var k :| PositionalFailsAt(params, ["Alice"], culture, k, r1.error);
    assert k != 0;
  }

  lemma ThirtyIsText()
    ensures Convert.IntegerText(30) == "30"
  {
    assert Convert.Digits(3) == "3";
  }
}

=== FILE: clr.dfy ===
/** The slice of the .NET runtime the dispatch core observes: the shapes of
    parameter and property types, the boxed values produced by binding, the
    exceptions binding and invocation can raise, and the reflection rule that
    decides whether a boxed value may be passed where a type is declared. */
module Clr {

  /** The outcome of a computation that may throw. `:-` propagates the
      exception, the way an uncaught .NET exception unwinds a call. */
  datatype Result<+T> = Ok(value: T) | Err(error: Exception) {
    predicate IsFailure() {
      Err?
    }

    function PropagateFailure<U>(): Result<U>
      requires Err?
    {
      Err(error)
    }

    function Extract(): T
      requires Ok?
    {
      value
    }
  }

  datatype Option<+T> = None | Some(value: T)

  /** The exceptions the modelled code can raise or let through. */
  datatype Exception =
    | FormatException                  // text not in the parse rule's syntax
    | OverflowException                // number outside the target kind's range
    | ArgumentException                // unknown primitive, or reflection type mismatch
    | IndexOutOfRangeException         // positional binding ran past the URL values
    | TargetParameterCountException    // Invoke with the wrong number of arguments
    | MissingMethodException           // Activator.CreateInstance without a default constructor
    | TargetException                  // an instance setter invoked on a null object
    | NullReferenceException           // dereferencing an unset back-reference
    | TargetInvocationException(inner: Exception)  // reflection's wrapper around what an invoked body threw
    | Thrown(message: string)          // raised inside an action, a view or a culture parser

  /** The types for which .NET's `Type.IsPrimitive` holds. */
  datatype PrimKind =
    | Bool | Char
    | SByte | Byte | Short | UShort | Int | UInt | Long | ULong
    | Float | Double
    | IntPtr | UIntPtr

  predicate IsIntegerKind(k: PrimKind) {
    k in {SByte, Byte, Short, UShort, Int, UInt, Long, ULong}
  }

  /** Inclusive lower bound of an integer kind. */
  function MinOf(k: PrimKind): int
    requires IsIntegerKind(k)
  {
    match k
    case SByte => -0x80
    case Short => -0x8000
    case Int => -0x8000_0000
    case Long => -0x8000_0000_0000_0000
    case _ => 0
  }

  /** Inclusive upper bound of an integer kind. */
  function MaxOf(k: PrimKind): int
    requires IsIntegerKind(k)
  {
    match k
    case SByte => 0x7F
    case Byte => 0xFF
    case Short => 0x7FFF
    case UShort => 0xFFFF
    case Int => 0x7FFF_FFFF
    case UInt => 0xFFFF_FFFF
    case Long => 0x7FFF_FFFF_FFFF_FFFF
    case ULong => 0xFFFF_FFFF_FFFF_FFFF
  }

  /** Names of the non-primitive value types the converter knows about; every
      other non-primitive type is `Named`. */
  datatype TypeName = DateTime | Decimal | Named(id: string)

  /** A parameter or property type, as the binder sees it.
      `Other` carries what `GetProperties` enumerates for the type (the model
      takes the enumeration as input instead of calling reflection),
      whether `Activator.CreateInstance` can build a default instance, and
      whether the type is a `Nullable<T>`, for which `CreateInstance`
      returns null instead of an instance. */
  datatype ClrType =
    | Str
    | Primitive(kind: PrimKind)
    | Other(name: TypeName, props: seq<Property>, creatable: bool, nullable: bool)
  {
    /** The binder's leaf test: `IsPrimitive || type == typeof(string)`. */
    predicate IsLeaf() {
      Str? || Primitive?
    }
  }

  /** A public property; `settable` is false when the property has no set
      accessor at all (`SetValue` also uses a non-public setter). */
  datatype Property = Property(name: string, ty: ClrType, settable: bool)

  /** The types whose text is parsed by a culture-dependent routine the model
      leaves opaque. */
  datatype CultureKind = SingleText | DoubleText | DecimalText | DateTimeText

  /** A culture-dependent parser: a token standing for the parsed value, or
      the exception it raises. */
  type CultureParser = (CultureKind, string) -> Result<nat>

  /** One `PropertyInfo.SetValue` performed on a freshly created instance. */
  datatype Assignment = Assignment(property: string, value: Value)

  /** A boxed .NET value (or null). */
  datatype Value =
    | Null
    | TextValue(s: string)
    | IntValue(kind: PrimKind, n: int)
    | BoolValue(b: bool)
    | CharValue(c: char)
    | CultureValue(ty: ClrType, token: nat)
    | Instance(ty: ClrType, assignments: seq<Assignment>)

  /** `GetType()` of a non-null boxed value. */
  function RuntimeType(v: Value): ClrType
    requires v != Null
  {
    match v
    case TextValue(_) => Str
    case IntValue(k, _) => Primitive(k)
    case BoolValue(_) => Primitive(Bool)
    case CharValue(_) => Primitive(Char)
    case CultureValue(t, _) => t
    case Instance(t, _) => t
  }

  /** Whether reflection (`MethodInfo.Invoke`, `PropertyInfo.SetValue`)
      accepts `v` where `t` is declared: null is accepted everywhere (a value
      type receives its default), anything else must have exactly type `t`. */
  predicate Assignable(v: Value, t: ClrType) {
    v == Null || RuntimeType(v) == t
  }
}

=== FILE: controller_base.dfy ===
/** The dispatch pipeline of one controller: which requests it claims, which
    action answers a request, who may call it, and the single outcome each
    request ends in. */
module ControllerBase {
  import opened Clr
  import opened Http
  import Text
  import Convert
  import Binder

  /** `CanHandle`: the request's controller name is a (case-sensitive)
      prefix of the controller's type name. */
  function CanHandle(c: Controller, r: Request): (b: bool)
    ensures b <==> |r.controllerName| <= |c.typeName| && c.typeName[..|r.controllerName|] == r.controllerName
  {
    Text.StartsWith(c.typeName, r.controllerName)
  }

  // ----- Attributes -----

  /** Some attribute in `attrs` is an `HttpMethodAttribute` for `verb`. */
  function DeclaresVerb(attrs: seq<Attribute>, verb: string): (b: bool)
    ensures b <==> exists a :: a in attrs && a.HttpMethodAttribute? && a.supports == verb
  {
    if |attrs| == 0 then false
    else
      assert forall a :: a in attrs <==> a == attrs[0] || a in attrs[1..];
      (attrs[0].HttpMethodAttribute? && attrs[0].supports == verb) || DeclaresVerb(attrs[1..], verb)
  }

  /** `SupportsHttpMethod`: an `HttpMethodAttribute` of the method names the
      verb exactly; a method without one supports no verb. */
  function SupportsHttpMethod(m: ActionMethod, verb: string): (b: bool)
    ensures b <==> HttpMethodAttribute(verb) in m.attributes
  {
    DeclaresVerb(m.attributes, verb)
  }

  /** The roles of the `AuthorizedRoleAttribute`s in `attrs`, in order. */
  function DeclaredRoles(attrs: seq<Attribute>): (roles: seq<string>)
    ensures forall role :: role in roles <==> AuthorizedRoleAttribute(role) in attrs
    ensures |roles| == 0 <==> forall a :: a in attrs ==> !a.AuthorizedRoleAttribute?
  {
    if |attrs| == 0 then []
    else
      var rest := DeclaredRoles(attrs[1..]);
      assert forall a :: a in attrs <==> a == attrs[0] || a in attrs[1..];
      if attrs[0].AuthorizedRoleAttribute? then [attrs[0].role] + rest else rest
  }

  /** Some role in `roles` is held. */
  function AnyHeld(roles: seq<string>, held: set<string>): (b: bool)
    ensures b <==> exists role :: role in roles && role in held
  {
    if |roles| == 0 then false
    else
      assert forall role :: role in roles <==> role == roles[0] || role in roles[1..];
      roles[0] in held || AnyHeld(roles[1..], held)
  }

  /** `UserAuthorized`: a method without `AuthorizedRoleAttribute` is open to
      everyone; otherwise holding any one of the declared roles suffices. */
  function UserAuthorized(m: ActionMethod, user: User): (b: bool)
    ensures b <==>
      (forall a :: a in m.attributes ==> !a.AuthorizedRoleAttribute?) ||
      (exists a :: a in m.attributes && a.AuthorizedRoleAttribute? && a.role in user.roles)
  {
    var roles := DeclaredRoles(m.attributes);
    if |roles| == 0 then true
    else
      var b := AnyHeld(roles, user.roles);
      assert roles[0] in roles;
      b
  }

  // ----- Action resolution -----

  /** The selection predicate `m.Name == ControllerMethodName && SupportsHttpMethod`. */
  predicate Matches(m: ActionMethod, r: Request) {
    m.name == r.controllerMethodName && SupportsHttpMethod(m, r.httpMethod)
  }

  /** Method `i` is the first one, in enumeration order, that matches. */
  predicate FirstMatch(methods: seq<ActionMethod>, r: Request, i: int) {
    && 0 <= i < |methods|
    && Matches(methods[i], r)
    && forall j :: 0 <= j < i ==> !Matches(methods[j], r)
  }

  /** At most one position is the first match. */
  lemma FirstMatchUnique(methods: seq<ActionMethod>, r: Request, i: int, j: int)
    requires FirstMatch(methods, r, i) && FirstMatch(methods, r, j)
    ensures i == j
  {
  }

  /** `FirstOrDefault` over the enumerated methods: the position of the first
      match, or none when no method matches. */
  function FindAction(methods: seq<ActionMethod>, r: Request): (found: Option<nat>)
    ensures found.Some? ==> FirstMatch(methods, r, found.value)
    ensures found.None? <==> forall j :: 0 <= j < |methods| ==> !Matches(methods[j], r)
  {
    if |methods| == 0 then None
    else if Matches(methods[0], r) then Some(0)
    else
      var rest := FindAction(methods[1..], r);
      if rest.None? then
        assert forall j :: 1 <= j < |methods| ==> methods[j] == methods[1..][j - 1];
        None
      else
        assert forall j :: 1 <= j <= rest.value ==> methods[j] == methods[1..][j - 1];
        Some(rest.value + 1)
  }

  // ----- Invocation -----

  /** Every argument is accepted by reflection for its parameter. */
  function AllAssignable(args: seq<Value>, params: seq<Parameter>): (b: bool)
    requires |args| == |params|
    ensures b <==> forall i :: 0 <= i < |args| ==> Assignable(args[i], params[i].ty)
  {
    if |args| == 0 then true
    else
      var rest := AllAssignable(args[1..], params[1..]);
      assert forall i :: 1 <= i < |args| ==> args[i] == args[1..][i - 1] && params[i] == params[1..][i - 1];
      Assignable(args[0], params[0].ty) && rest
  }

  /** `method.Invoke(this, parameters)`: the argument count must equal the
      parameter count, and every argument must be null or of exactly the
      declared type; only then does the action body run. An exception the
      body throws reaches the caller wrapped in `TargetInvocationException`. */
  function Invoke(c: Controller, m: ActionMethod, args: seq<Value>, o: Oracles): (res: Result<Value>)
    ensures |args| != |m.parameters| ==> res == Err(TargetParameterCountException)
    ensures |args| == |m.parameters| && (exists i :: 0 <= i < |args| && !Assignable(args[i], m.parameters[i].ty)) ==>
      res == Err(ArgumentException)
    ensures |args| == |m.parameters| && (forall i :: 0 <= i < |args| ==> Assignable(args[i], m.parameters[i].ty)) ==>
      && (o.invoke(c, m, args).Ok? ==> res == o.invoke(c, m, args))
      && (o.invoke(c, m, args).Err? ==> res == Err(TargetInvocationException(o.invoke(c, m, args).error)))
    ensures res.Ok? ==> res == o.invoke(c, m, args)
  {
    if |args| != |m.parameters| then Err(TargetParameterCountException)
    else if !AllAssignable(args, m.parameters) then Err(ArgumentException)
    else
      match o.invoke(c, m, args)
      case Ok(v) => Ok(v)
      case Err(e) => Err(TargetInvocationException(e))
  }

  /** The body of the `try`: bind the arguments, invoke the action, and render
      its result with the view the request's site provides. The first
      exception ends the sequence. */
  function Execute(c: Controller, m: ActionMethod, r: Request, o: Oracles): (res: Result<View>)
    ensures Binder.GetParametersFromRequest(m, r, o.culture).Err? ==>
      res == Err(Binder.GetParametersFromRequest(m, r, o.culture).error)
    ensures Binder.GetParametersFromRequest(m, r, o.culture).Ok? ==>
      var invoked := Invoke(c, m, Binder.GetParametersFromRequest(m, r, o.culture).value, o);
      && (invoked.Err? ==> res == Err(invoked.error))
      && (invoked.Ok? && r.webSite.None? ==> res == Err(NullReferenceException))
      && (invoked.Ok? && r.webSite.Some? ==> res == o.render(r.webSite.value, r, invoked.value))
    ensures res.Ok? ==>
      && Binder.GetParametersFromRequest(m, r, o.culture).Ok?
      && Invoke(c, m, Binder.GetParametersFromRequest(m, r, o.culture).value, o).Ok?
      && r.webSite.Some?
    ensures r.webSite.None? ==> res.Err?
  {
    var args :- Binder.GetParametersFromRequest(m, r, o.culture);
    var result :- Invoke(c, m, args, o);
    if r.webSite.None? then Err(NullReferenceException)
    else o.render(r.webSite.value, r, result)
  }

  /** `Handle`: exactly one outcome per request. No matching action is
      `NotFound`; a matching action the user may not call is `NotAllowed`;
      otherwise the rendered view, or `InternalError` for whatever exception
      binding, invocation or rendering raised. */
  function Handle(c: Controller, r: Request, o: Oracles): (out: Outcome)
    ensures out == NotFound <==> forall j :: 0 <= j < |c.methods| ==> !Matches(c.methods[j], r)
    ensures out == NotAllowed <==>
      exists i :: FirstMatch(c.methods, r, i) && !UserAuthorized(c.methods[i], r.user)
    ensures out.Body? ==>
      exists i :: FirstMatch(c.methods, r, i) && UserAuthorized(c.methods[i], r.user) &&
        Execute(c, c.methods[i], r, o) == Ok(View(out.content, out.contentType))
    ensures out.InternalError? ==>
      exists i :: FirstMatch(c.methods, r, i) && UserAuthorized(c.methods[i], r.user) &&
        Execute(c, c.methods[i], r, o) == Err(out.cause)
    ensures !out.File?
  {
    match FindAction(c.methods, r)
    case None => NotFound
    case Some(i) =>
      assert forall j :: FirstMatch(c.methods, r, j) ==> j == i by {
        forall j | FirstMatch(c.methods, r, j)
          ensures j == i
        {
          FirstMatchUnique(c.methods, r, i, j);
        }
      }
      var m := c.methods[i];
      if !UserAuthorized(m, r.user) then NotAllowed
      else
        match Execute(c, m, r, o)
        case Ok(view) => Body(view.content, view.contentType)
        case Err(e) => InternalError(e)
  }

  // ----- Properties of dispatch -----

  /** Without a matching action the outcome is `NotFound` whatever the
      collaborators would do: nothing is bound, invoked or rendered. */
  lemma UnresolvedInvokesNothing(c: Controller, r: Request, o: Oracles, o': Oracles)
    requires forall j :: 0 <= j < |c.methods| ==> !Matches(c.methods[j], r)
    ensures Handle(c, r, o) == NotFound && Handle(c, r, o') == NotFound
  {
  }

  /** A denied request is `NotAllowed` whatever the collaborators would do:
      binding, the action and the view are never reached. */
  lemma DeniedInvokesNothing(c: Controller, r: Request, o: Oracles, o': Oracles, i: nat)
    requires FirstMatch(c.methods, r, i) && !UserAuthorized(c.methods[i], r.user)
    ensures Handle(c, r, o) == NotAllowed && Handle(c, r, o') == NotAllowed
  {
  }

  /** A controller's dispatch reads only the culture parsers, the action
      and the view: the file system and the controller provider play no part. */
  lemma HandleIgnoresFileSystem(c: Controller, r: Request, o: Oracles, o': Oracles)
    requires o.culture == o'.culture && o.invoke == o'.invoke && o.render == o'.render
    ensures Handle(c, r, o) == Handle(c, r, o')
  {
    var found := FindAction(c.methods, r);
    if found.Some? {
      ExecuteIgnoresFileSystem(c, c.methods[found.value], r, o, o');
    }
  }

  /** Running one action reads only the culture parsers, the action and the
      view. */
  lemma ExecuteIgnoresFileSystem(c: Controller, m: ActionMethod, r: Request, o: Oracles, o': Oracles)
    requires o.culture == o'.culture && o.invoke == o'.invoke && o.render == o'.render
    ensures Execute(c, m, r, o) == Execute(c, m, r, o')
  {
    var args := Binder.GetParametersFromRequest(m, r, o.culture);
    if args.Ok? {
      assert Invoke(c, m, args.value, o) == Invoke(c, m, args.value, o');
    }
  }

  /** A controller with no enumerated methods answers every request with
      `NotFound`, which is what the literal `GetMethods(BindingFlags.Public)`
      (no `Instance` flag) enumeration leads to. */
  lemma EmptyEnumerationIsNotFound(c: Controller, r: Request, o: Oracles)
    requires c.methods == []
    ensures Handle(c, r, o) == NotFound
  {
  }

  /** Authorization is a disjunction over the declared roles: holding any one
      of them is enough, and holding none of them is not. */
  lemma {:induction false} AnyDeclaredRoleAuthorizes(m: ActionMethod, user: User, role: string)
    requires AuthorizedRoleAttribute(role) in m.attributes
    ensures role in user.roles ==> UserAuthorized(m, user)
    ensures (forall a :: a in m.attributes && a.AuthorizedRoleAttribute? ==> a.role !in user.roles) ==> !UserAuthorized(m, user)
  {
    var a := AuthorizedRoleAttribute(role);
    assert a in m.attributes && a.AuthorizedRoleAttribute?;
  }

  /** The request is bound, invoked and rendered with a matching, authorized
      action only; when binding fails the outcome is that failure as an
      `InternalError`, never a body. */
  lemma BindingFailureIsInternalError(c: Controller, r: Request, o: Oracles, i: nat)
    requires FirstMatch(c.methods, r, i) && UserAuthorized(c.methods[i], r.user)
    requires Binder.GetParametersFromRequest(c.methods[i], r, o.culture).Err?
    ensures Handle(c, r, o) == InternalError(Binder.GetParametersFromRequest(c.methods[i], r, o.culture).error)
  {
    var found := FindAction(c.methods, r);
    FirstMatchUnique(c.methods, r, found.value, i);
    assert Execute(c, c.methods[i], r, o) == Err(Binder.GetParametersFromRequest(c.methods[i], r, o.culture).error);
  }

  /** Once an authorized action's arguments are bound and accepted, an
      exception its body throws ends the request in `InternalError`, carrying
      the `TargetInvocationException` that reflection wraps it in. */
  lemma InvocationFailureIsInternalError(c: Controller, r: Request, o: Oracles, i: nat, e: Exception)
    requires FirstMatch(c.methods, r, i) && UserAuthorized(c.methods[i], r.user)
    requires
      var args := Binder.GetParametersFromRequest(c.methods[i], r, o.culture);
      && args.Ok? && |args.value| == |c.methods[i].parameters|
      && (forall k :: 0 <= k < |args.value| ==> Assignable(args.value[k], c.methods[i].parameters[k].ty))
      && o.invoke(c, c.methods[i], args.value) == Err(e)
    ensures Handle(c, r, o) == InternalError(TargetInvocationException(e))
  {
    var found := FindAction(c.methods, r);
    FirstMatchUnique(c.methods, r, found.value, i);
    var args := Binder.GetParametersFromRequest(c.methods[i], r, o.culture).value;
    assert Invoke(c, c.methods[i], args, o) == Err(TargetInvocationException(e));
    assert Execute(c, c.methods[i], r, o) == Err(TargetInvocationException(e));
  }

  /** Positional binding makes the argument array as long as the URL values,
      so a request carrying more URL values than the action has parameters
      can never reach the action: it always ends in `InternalError`. */
  lemma SurplusUrlValuesNeverRender(c: Controller, r: Request, o: Oracles, i: nat)
    requires FirstMatch(c.methods, r, i) && UserAuthorized(c.methods[i], r.user)
    requires |r.urlValues| > |c.methods[i].parameters|
    ensures Handle(c, r, o).InternalError?
  {
    var m := c.methods[i];
    var args := Binder.GetParametersFromRequest(m, r, o.culture);
    if args.Ok? {
      assert Invoke(c, m, args.value, o) == Err(TargetParameterCountException);
    }
  }

  /** The `int` conversion produces a boxed `uint`, which reflection does not
      pass for an `int` parameter: an action with an `int` parameter bound
      from URL values never runs, and the request ends in `InternalError`. */
  lemma IntParameterNeverRuns(c: Controller, r: Request, o: Oracles, i: nat, k: nat)
    requires FirstMatch(c.methods, r, i) && UserAuthorized(c.methods[i], r.user)
    requires |r.urlValues| > 0
    requires k < |c.methods[i].parameters| && c.methods[i].parameters[k].ty == Primitive(Int)
    ensures Handle(c, r, o).InternalError?
  {
    var m := c.methods[i];
    var args := Binder.GetParametersFromRequest(m, r, o.culture);
    if args.Ok? && |args.value| == |m.parameters| {
      var v := args.value[k];
      assert v != Null && RuntimeType(v) == Primitive(UInt);
      assert !Assignable(args.value[k], m.parameters[k].ty);
      assert Invoke(c, m, args.value, o) == Err(ArgumentException);
    }
  }

  /** A request that has not been given its site cannot render a view. */
  lemma UnboundRequestNeverRenders(c: Controller, r: Request, o: Oracles)
    requires r.webSite.None?
    ensures !Handle(c, r, o).Body?
  {
  }

  /** Matching is prefix-closed in the requested name: shortening the
      requested controller name keeps every controller it matched, and the
      empty name matches every controller. */
  lemma {:induction false} CanHandlePrefixClosed(c: Controller, r: Request, p: string)
    requires CanHandle(c, r)
    requires Text.StartsWith(r.controllerName, p)
    ensures CanHandle(c, r.(controllerName := p))
    ensures CanHandle(c, r.(controllerName := ""))
  {
    assert c.typeName[..|p|] == r.controllerName[..|p|];
  }

  /** `Users` is claimed by `UsersController` but not by `UserController`
      or `usersController`; and `UsersController` does not claim a request
      for `UsersControllerX`. */
  lemma CanHandleExamples(r: Request)
    requires r.controllerName == "Users"
    ensures CanHandle(Controller("UsersController", "Site", []), r)
    ensures !CanHandle(Controller("UserController", "Site", []), r)
    ensures !CanHandle(Controller("usersController", "Site", []), r)
    ensures !CanHandle(Controller("UsersController", "Site", []), r.(controllerName := "UsersControllerX"))
  {
    assert "UsersController"[..5] == "Users";
    assert "UserController"[..5] != "Users" by {
      assert "UserController"[4] != "Users"[4];
    }
    assert "usersController"[..5] != "Users" by {
      assert "usersController"[0] != "Users"[0];
    }
  }

  /** Action resolution takes the first method with the requested name that
      supports the verb: a `List` declared for GET and a `List` declared for
      POST resolve by verb, and a method without verb attributes is never
      chosen. */
  lemma ResolutionByVerbExample(r: Request)
    requires r.controllerMethodName == "List"
    ensures
      var untagged := ActionMethod("List", [], []);
      var get := ActionMethod("List", [], [HttpMethodAttribute("GET")]);
      var post := ActionMethod("List", [], [OtherAttribute("Cached"), HttpMethodAttribute("POST")]);
      && (r.httpMethod == "GET" ==> FindAction([untagged, get, post], r) == Some(1))
      && (r.httpMethod == "POST" ==> FindAction([untagged, get, post], r) == Some(2))
      && (r.httpMethod == "get" ==> FindAction([untagged, get, post], r) == None)
  {
    var untagged := ActionMethod("List", [], []);
    var get := ActionMethod("List", [], [HttpMethodAttribute("GET")]);
    var post := ActionMethod("List", [], [OtherAttribute("Cached"), HttpMethodAttribute("POST")]);
    assert !Matches(untagged, r);
    if r.httpMethod == "GET" {
      assert Matches(get, r);
    }
    if r.httpMethod == "POST" {
      assert post.attributes[1] == HttpMethodAttribute("POST");
      assert Matches(post, r);
      assert HttpMethodAttribute("POST") !in get.attributes;
      assert !Matches(get, r);
      var ms := [untagged, get, post];
      assert FirstMatch(ms, r, 2);
      var found := FindAction(ms, r);
      assert found.Some?;
      FirstMatchUnique(ms, r, found.value, 2);
    }
    if r.httpMethod == "get" {
      assert HttpMethodAttribute("get") !in get.attributes;
      assert HttpMethodAttribute("get") !in post.attributes;
      assert !Matches(get, r) && !Matches(post, r);
      var ms := [untagged, get, post];
      assert forall j :: 0 <= j < |ms| ==> !Matches(ms[j], r);
    }
  }

  /** End to end: `GET Users/Get/alice` on a `UsersController` whose `Get`
      takes one string runs `Get("alice")` and renders its result with the
      request's site. An exception from the action reaches `InternalError`
      wrapped by reflection; one from the view reaches it as thrown. */
  lemma EndToEndExample(r: Request, o: Oracles, s: Site)
    requires r.controllerName == "Users" && r.controllerMethodName == "Get" && r.httpMethod == "GET"
    requires r.urlValues == ["alice"] && r.webSite == Some(s)
    ensures
      var get := ActionMethod("Get", [Parameter("name", Str)], [HttpMethodAttribute("GET")]);
      var c := Controller("UsersController", "Demo.Users", [get]);
      var result := o.invoke(c, get, [TextValue("alice")]);
      && CanHandle(c, r)
      && Handle(c, r, o) ==
        if result.Err? then InternalError(TargetInvocationException(result.error))
        else match o.render(s, r, result.value)
          case Ok(view) => Body(view.content, view.contentType)
          case Err(e) => InternalError(e)
  {
    var get := ActionMethod("Get", [Parameter("name", Str)], [HttpMethodAttribute("GET")]);
    var c := Controller("UsersController", "Demo.Users", [get]);
    assert "UsersController"[..5] == "Users";
    assert Matches(get, r);
    assert FindAction(c.methods, r) == Some(0);
    SingleStringBinds(get, r, o.culture);
    assert Assignable(TextValue("alice"), Str);
    var result := o.invoke(c, get, [TextValue("alice")]);
    assert Invoke(c, get, [TextValue("alice")], o) == if result.Err? then Err(TargetInvocationException(result.error)) else result;
  }

  /** The URL value `alice` binds positionally to a single string parameter. */
  lemma SingleStringBinds(m: ActionMethod, r: Request, culture: CultureParser)
    requires m.parameters == [Parameter("name", Str)] && r.urlValues == ["alice"]
    ensures Binder.GetParametersFromRequest(m, r, culture) == Ok([TextValue("alice")])
  {
    var p := Binder.BindUrlValuesByPosition(m.parameters, r.urlValues, culture);
    assert Convert.StringToObject("alice", Str, culture) == Ok(TextValue("alice"));
    assert p.Ok?;
    assert p.value == [TextValue("alice")];
  }
}

=== FILE: convert.dfy ===
/** The primitive converter `StringToObject`: text to a boxed value of a
    declared type, with the parse rules of .NET's `Convert.ToXxx(string)`
    under an invariant culture for the integer, boolean and character kinds.
    Floating-point, decimal and date parsing depend on the current culture
    and are delegated to a `CultureParser`. */
module Convert {
  import opened Clr
  import Text

  /** The white space `NumberStyles.Integer` allows around a number:
      U+0009 to U+000D and U+0020. */
  predicate IsNumberWhite(c: char) {
    c == ' ' || '\t' <= c <= '\r'
  }

  /** What boolean parsing trims: `char.IsWhiteSpace` and U+0000. */
  predicate IsBoolTrim(c: char) {
    || c == '\0' || c == ' ' || '\t' <= c <= '\r'
    || c == '\U{0085}' || c == '\U{00A0}' || c == '\U{1680}'
    || '\U{2000}' <= c <= '\U{200A}'
    || c == '\U{2028}' || c == '\U{2029}' || c == '\U{202F}' || c == '\U{205F}' || c == '\U{3000}'
  }

  predicate IsDigit(c: char) {
    '0' <= c <= '9'
  }

  predicate AllDigits(s: string) {
    forall i :: 0 <= i < |s| ==> IsDigit(s[i])
  }

  /** The number a string of decimal digits denotes. */
  function DigitsValue(ds: string): nat
    requires AllDigits(ds)
  {
    if |ds| == 0 then 0
    else 10 * DigitsValue(ds[..|ds| - 1]) + (ds[|ds| - 1] as int - '0' as int)
  }

  function DigitChar(d: nat): (c: char)
    requires d < 10
    ensures IsDigit(c) && c as int - '0' as int == d
  {
    ('0' as int + d) as char
  }

  /** The shortest decimal text of `n`, as `ToString()` renders it. */
  function Digits(n: nat): (s: string)
    ensures |s| > 0 && AllDigits(s)
    ensures |s| > 1 ==> s[0] != '0'
  {
    if n < 10 then [DigitChar(n)] else Digits(n / 10) + [DigitChar(n % 10)]
  }

  /** `ToString()` of an integer under the invariant culture. */
  function IntegerText(n: int): (s: string)
    ensures |s| > 0
  {
    if n < 0 then "-" + Digits(-n) else Digits(n)
  }

  /** Digit text without superfluous leading zeros. */
  predicate IsCanonicalDigits(s: string) {
    |s| > 0 && AllDigits(s) && (|s| > 1 ==> s[0] != '0')
  }

  /** Integer text as `ToString()` produces it: canonical digits, with a
      minus sign before any non-zero magnitude. */
  predicate IsCanonicalInteger(s: string) {
    || IsCanonicalDigits(s)
    || (|s| > 1 && s[0] == '-' && IsCanonicalDigits(s[1..]) && s[1] != '0')
  }

  /** The text left after the optional leading sign: whether it was `-`, and
      the rest. */
  function SplitSign(t: string): (r: (bool, string))
    ensures |r.1| <= |t|
  {
    if |t| > 0 && t[0] == '-' then (true, t[1..])
    else if |t| > 0 && t[0] == '+' then (false, t[1..])
    else (false, t)
  }

  /** `XxxInt.Parse(s)` with `NumberStyles.Integer`: optional white space, an
      optional sign, at least one decimal digit, optional white space. Syntax
      is checked before range, and a negative zero is zero. */
  function ParseInteger(s: string, lo: int, hi: int): (r: Result<int>)
    ensures r.Ok? ==> lo <= r.value <= hi
    ensures r.Err? ==> r.error == FormatException || r.error == OverflowException
  {
    var t := Text.Trim(s, IsNumberWhite);
    var (negative, digits) := SplitSign(t);
    if |digits| == 0 || !AllDigits(digits) then Err(FormatException)
    else
      var v: int := if negative then -(DigitsValue(digits) as int) else DigitsValue(digits);
      if lo <= v <= hi then Ok(v) else Err(OverflowException)
  }

  function AsciiUpper(c: char): char {
    if 'a' <= c <= 'z' then (c as int - 32) as char else c
  }

  predicate EqualsIgnoreCase(a: string, b: string) {
    |a| == |b| && forall i :: 0 <= i < |a| ==> AsciiUpper(a[i]) == AsciiUpper(b[i])
  }

  /** `Boolean.ToString()`. */
  function BoolText(b: bool): string {
    if b then "True" else "False"
  }

  /** `Convert.ToBoolean(s)`: after trimming, `True` or `False` in any case. */
  function ParseBool(s: string): (r: Result<bool>)
    ensures r.Ok? ==> EqualsIgnoreCase(Text.Trim(s, IsBoolTrim), BoolText(r.value))
    ensures r.Err? <==>
      !EqualsIgnoreCase(Text.Trim(s, IsBoolTrim), "True") && !EqualsIgnoreCase(Text.Trim(s, IsBoolTrim), "False")
    ensures r.Err? ==> r.error == FormatException
  {
    var t := Text.Trim(s, IsBoolTrim);
    if EqualsIgnoreCase(t, "True") then Ok(true)
    else if EqualsIgnoreCase(t, "False") then Ok(false)
    else Err(FormatException)
  }

  /** Whether a character is one UTF-16 code unit, that is, a .NET `char`. */
  predicate IsUtf16Unit(c: char) {
    c as int < 0x1_0000
  }

  /** `s.Length`: the number of UTF-16 code units of `s`; a character above
      U+FFFF takes two. */
  function Utf16Length(s: string): (n: nat)
    ensures |s| <= n <= 2 * |s|
    ensures n == |s| <==> forall i :: 0 <= i < |s| ==> IsUtf16Unit(s[i])
  {
    if |s| == 0 then 0
    else (if IsUtf16Unit(s[0]) then 1 else 2) + Utf16Length(s[1..])
  }

  /** `Convert.ToChar(s)`: the string must be exactly one UTF-16 code unit
      long. */
  function ParseChar(s: string): (r: Result<char>)
    ensures r.Ok? <==> |s| == 1 && IsUtf16Unit(s[0])
    ensures r.Ok? ==> s == [r.value]
    ensures r.Err? ==> r.error == FormatException
  {
    if Utf16Length(s) == 1 then Ok(s[0]) else Err(FormatException)
  }

  /** The kind of the boxed integer the converter produces for a target
      kind: the `int` branch calls `Convert.ToUInt32`. */
  function ParsedKind(k: PrimKind): PrimKind {
    if k == Int then UInt else k
  }

  /** The runtime type of what the converter returns for target `t`. */
  function ConvertedType(t: ClrType): ClrType {
    if t.Primitive? then Primitive(ParsedKind(t.kind)) else t
  }

  /** The target types `StringToObject` has a branch for; `DateTime?` and
      `decimal?` are not `typeof(DateTime)` and `typeof(decimal)`. */
  predicate Convertible(t: ClrType) {
    match t
    case Str => true
    case Primitive(k) => k != IntPtr && k != UIntPtr
    case Other(n, _, _, nullable) => !nullable && (n == DateTime || n == Decimal)
  }

  function CultureConvert(t: ClrType, kind: CultureKind, value: string, culture: CultureParser): (r: Result<Value>)
    ensures culture(kind, value).Ok? ==> r == Ok(CultureValue(t, culture(kind, value).value))
    ensures culture(kind, value).Err? ==> r == Err(culture(kind, value).error)
  {
    var token :- culture(kind, value);
    Ok(CultureValue(t, token))
  }

  /** The branches of `StringToObject` for primitive targets. */
  function PrimitiveFromString(value: string, k: PrimKind, culture: CultureParser): (r: Result<Value>)
    ensures k == IntPtr || k == UIntPtr ==> r == Err(ArgumentException)
    ensures r.Ok? ==> r.value != Null && RuntimeType(r.value) == Primitive(ParsedKind(k))
    ensures r.Ok? && r.value.IntValue? ==>
      IsIntegerKind(r.value.kind) && MinOf(r.value.kind) <= r.value.n <= MaxOf(r.value.kind)
  {
    if IsIntegerKind(k) then
      var pk := ParsedKind(k);
      var n :- ParseInteger(value, MinOf(pk), MaxOf(pk));
      Ok(IntValue(pk, n))
    else if k == Bool then
      var b :- ParseBool(value);
      Ok(BoolValue(b))
    else if k == Char then
      var c :- ParseChar(value);
      Ok(CharValue(c))
    else if k == Float then CultureConvert(Primitive(k), SingleText, value, culture)
    else if k == Double then CultureConvert(Primitive(k), DoubleText, value, culture)
    else Err(ArgumentException)
  }

  /** `StringToObject(value, type)`: strings are returned unchanged, each
      listed primitive and value type is parsed by its own rule, and any
      other type is an `ArgumentException`. */
  function StringToObject(value: string, t: ClrType, culture: CultureParser): (r: Result<Value>)
    ensures t == Str ==> r == Ok(TextValue(value))
    ensures !Convertible(t) ==> r == Err(ArgumentException)
    ensures r.Ok? ==> r.value != Null && RuntimeType(r.value) == ConvertedType(t)
    ensures r.Ok? && r.value.IntValue? ==>
      IsIntegerKind(r.value.kind) && MinOf(r.value.kind) <= r.value.n <= MaxOf(r.value.kind)
  {
    match t
    case Str => Ok(TextValue(value))
    case Primitive(k) => PrimitiveFromString(value, k, culture)
    case Other(n, _, _, nullable) =>
      if !nullable && n == DateTime then CultureConvert(t, DateTimeText, value, culture)
      else if !nullable && n == Decimal then CultureConvert(t, DecimalText, value, culture)
      else Err(ArgumentException)
  }

  // ----- Round trips -----

  /** Rendering a number in decimal and reading it back gives the number. */
  lemma {:induction false} DigitsTextRoundTrip(n: nat)
    ensures DigitsValue(Digits(n)) == n
  {
    if n >= 10 {
      var s := Digits(n);
      assert s[..|s| - 1] == Digits(n / 10);
      DigitsTextRoundTrip(n / 10);
    }
  }

  /** Canonical digit text has a positive value unless it is `0`. */
  lemma {:induction false} LeadingDigitPositive(s: string)
    requires IsCanonicalDigits(s) && s[0] != '0'
    ensures DigitsValue(s) > 0
  {
    if |s| > 1 {
      var p := s[..|s| - 1];
      assert p[0] == s[0];
      LeadingDigitPositive(p);
    }
  }

  /** Reading canonical digit text and rendering the number gives the text back. */
  lemma {:induction false} DigitsRoundTrip(s: string)
    requires IsCanonicalDigits(s)
    ensures Digits(DigitsValue(s)) == s
  {
    if |s| > 1 {
      var p := s[..|s| - 1];
      assert p[0] == s[0];
      LeadingDigitPositive(p);
      DigitsRoundTrip(p);
      var n := DigitsValue(s);
      assert n / 10 == DigitsValue(p) && n % 10 == s[|s| - 1] as int - '0' as int;
      assert s == p + [s[|s| - 1]];
    }
  }

  /** Integer text as `ToString()` writes it parses back to the same number
      when the number is in range, and overflows otherwise. */
  lemma IntegerTextParses(n: int, lo: int, hi: int)
    ensures ParseInteger(IntegerText(n), lo, hi) == if lo <= n <= hi then Ok(n) else Err(OverflowException)
  {
    var s := IntegerText(n);
    Text.TrimKeepsTrimmed(s, IsNumberWhite);
    var m: nat := if n < 0 then -n else n;
    DigitsTextRoundTrip(m);
    if n < 0 {
      assert s[1..] == Digits(m);
      assert SplitSign(s) == (true, Digits(m));
    } else {
      assert IsDigit(s[0]);
      assert SplitSign(s) == (false, Digits(m));
    }
  }

  /** Canonical integer text that parses renders back to the same text. */
  lemma CanonicalIntegerRoundTrip(s: string, lo: int, hi: int)
    requires IsCanonicalInteger(s)
    requires ParseInteger(s, lo, hi).Ok?
    ensures IntegerText(ParseInteger(s, lo, hi).value) == s
  {
    Text.TrimKeepsTrimmed(s, IsNumberWhite);
    if IsCanonicalDigits(s) {
      DigitsRoundTrip(s);
    } else {
      var d := s[1..];
      assert d[0] == s[1];
      LeadingDigitPositive(d);
      DigitsRoundTrip(d);
      assert s == "-" + d;
    }
  }

  /** For every integer kind, converting the text of an in-range number
      yields that number, boxed as the kind the converter produces. */
  lemma IntegerConversionRoundTrip(k: PrimKind, n: int, culture: CultureParser)
    requires IsIntegerKind(k) && MinOf(ParsedKind(k)) <= n <= MaxOf(ParsedKind(k))
    ensures StringToObject(IntegerText(n), Primitive(k), culture) == Ok(IntValue(ParsedKind(k), n))
  {
    IntegerTextParses(n, MinOf(ParsedKind(k)), MaxOf(ParsedKind(k)));
  }

  /** The `int` branch uses the unsigned 32-bit rule: the text of any
      negative number is rejected with an overflow, and a non-negative one
      comes back boxed as `uint`. */
  lemma IntRejectsNegativeText(n: int, culture: CultureParser)
    requires n < 0
    ensures StringToObject(IntegerText(n), Primitive(Int), culture) == Err(OverflowException)
  {
    var s := IntegerText(n);
    assert MinOf(ParsedKind(Int)) == 0 && MaxOf(ParsedKind(Int)) == 0xFFFF_FFFF;
    PrimitiveTarget(s, Int, culture);
    IntegerBranch(s, Int, culture);
    IntegerTextParses(n, 0, 0xFFFF_FFFF);
  }

  /** A primitive target is converted by the primitive branch. */
  lemma PrimitiveTarget(value: string, k: PrimKind, culture: CultureParser)
    ensures StringToObject(value, Primitive(k), culture) == PrimitiveFromString(value, k, culture)
  {
  }

  /** What `StringToObject` returns, target by target: each integer kind
      is its range-checked parse boxed as the kind it parses as, `bool` and
      `char` are `Boolean.Parse` and `Convert.ToChar`, the floating-point,
      `DateTime` and `decimal` targets are their culture parsers, and every
      other target is an `ArgumentException`. */
  lemma ConversionBranches(value: string, t: ClrType, culture: CultureParser)
    ensures
      var r := StringToObject(value, t, culture);
      && (t == Str ==> r == Ok(TextValue(value)))
      && (t.Primitive? && IsIntegerKind(t.kind) ==>
            var n := ParseInteger(value, MinOf(ParsedKind(t.kind)), MaxOf(ParsedKind(t.kind)));
            r == if n.Ok? then Ok(IntValue(ParsedKind(t.kind), n.value)) else Err(n.error))
      && (t == Primitive(Bool) ==>
            r == if ParseBool(value).Ok? then Ok(BoolValue(ParseBool(value).value)) else Err(ParseBool(value).error))
      && (t == Primitive(Char) ==>
            r == if ParseChar(value).Ok? then Ok(CharValue(ParseChar(value).value)) else Err(ParseChar(value).error))
      && (t == Primitive(Float) ==> r == CultureConvert(t, SingleText, value, culture))
      && (t == Primitive(Double) ==> r == CultureConvert(t, DoubleText, value, culture))
      && (t.Other? && Convertible(t) ==>
            r == CultureConvert(t, if t.name == DateTime then DateTimeText else DecimalText, value, culture))
      && (!Convertible(t) ==> r == Err(ArgumentException))
  {
  }

  /** `Boolean.Parse` ignores surrounding white space and letter case:
      ` TRUE ` binds to `bool` as `true`. */
  lemma BoolTextVariant(culture: CultureParser)
    ensures StringToObject(" TRUE ", Primitive(Bool), culture) == Ok(BoolValue(true))
  {
    PaddedTrueParses();
    PrimitiveTarget(" TRUE ", Bool, culture);
  }

  lemma PaddedTrueParses()
    ensures ParseBool(" TRUE ") == Ok(true)
  {
    PaddedTrueTrims();
    UpperTrueMatches();
  }

  lemma UpperTrueMatches()
    ensures EqualsIgnoreCase("TRUE", "True")
  {
    var a, b := "TRUE", "True";
    assert AsciiUpper(a[1]) == 'R' == AsciiUpper(b[1]);
    assert AsciiUpper(a[2]) == 'U' == AsciiUpper(b[2]);
    assert AsciiUpper(a[3]) == 'E' == AsciiUpper(b[3]);
  }

  /** One space is trimmed from each end of ` TRUE `. */
  lemma PaddedTrueTrims()
    ensures Text.Trim(" TRUE ", IsBoolTrim) == "TRUE"
  {
    var s := " TRUE ";
    assert IsBoolTrim(' ') && !IsBoolTrim('T') && !IsBoolTrim('E');
    assert Text.LeadCount(s[1..], IsBoolTrim) == 0;
    assert Text.LeadCount(s, IsBoolTrim) == 1;
    var rest := s[1..];
    assert rest == "TRUE ";
    assert Text.TrailCount(rest[..4], IsBoolTrim) == 0;
    assert Text.TrailCount(rest, IsBoolTrim) == 1;
  }

  /** Any other word is a `FormatException`. */
  lemma BoolTextRejected(culture: CultureParser)
    ensures StringToObject("yes", Primitive(Bool), culture) == Err(FormatException)
  {
    YesParsesAsNothing();
    PrimitiveTarget("yes", Bool, culture);
  }

  lemma YesParsesAsNothing()
    ensures ParseBool("yes") == Err(FormatException)
  {
    var s := "yes";
    assert !IsBoolTrim('y') && !IsBoolTrim('s');
    assert Text.LeadCount(s, IsBoolTrim) == 0;
    assert Text.TrailCount(s, IsBoolTrim) == 0;
    assert s[0..][..3] == s;
    assert AsciiUpper(s[0]) == 'Y' != AsciiUpper("True"[0]);
  }

  /** An integer kind's branch is exactly its range-checked parse. */
  lemma IntegerBranch(value: string, k: PrimKind, culture: CultureParser)
    requires IsIntegerKind(k)
    ensures ParseInteger(value, MinOf(ParsedKind(k)), MaxOf(ParsedKind(k))).Err? ==>
      PrimitiveFromString(value, k, culture) == Err(ParseInteger(value, MinOf(ParsedKind(k)), MaxOf(ParsedKind(k))).error)
  {
  }

  /** Boolean text as `ToString()` writes it converts back to the same value. */
  lemma BoolRoundTrip(b: bool, culture: CultureParser)
    ensures StringToObject(BoolText(b), Primitive(Bool), culture) == Ok(BoolValue(b))
  {
    BoolTextParses(b);
    PrimitiveTarget(BoolText(b), Bool, culture);
  }

  /** `Boolean.Parse` reads back what `Boolean.ToString()` writes. */
  lemma BoolTextParses(b: bool)
    ensures ParseBool(BoolText(b)) == Ok(b)
  {
    var t := BoolText(b);
    Text.TrimKeepsTrimmed(t, IsBoolTrim);
    assert EqualsIgnoreCase(t, "True") <==> b;
  }

  /** A one-character string converts to that character and back, when the
      character is a .NET `char`. */
  lemma CharRoundTrip(c: char, culture: CultureParser)
    requires IsUtf16Unit(c)
    ensures StringToObject([c], Primitive(Char), culture) == Ok(CharValue(c))
  {
  }

  /** A character above U+FFFF is two UTF-16 code units, so its text is not
      a `char`. */
  lemma AstralCharRejected(c: char, culture: CultureParser)
    requires !IsUtf16Unit(c)
    ensures StringToObject([c], Primitive(Char), culture) == Err(FormatException)
  {
  }
}

=== FILE: http.dfy ===
/** The data the dispatch pipeline works on: requests, controllers with their
    action descriptors, sites, response outcomes, and the collaborators the
    pipeline calls but whose code is not part of this model. */
module Http {
  import opened Clr

  /** `Priorities`; only `Normal` is referred to by the modelled code. */
  datatype Priority = Normal | Ranked(level: int)

  /** The custom attributes the dispatcher reads off an action method. */
  datatype Attribute =
    | HttpMethodAttribute(supports: string)
    | AuthorizedRoleAttribute(role: string)
    | OtherAttribute(name: string)

  datatype Parameter = Parameter(name: string, ty: ClrType)

  /** A public method of a controller, in the order reflection enumerates it. */
  datatype ActionMethod = ActionMethod(name: string, parameters: seq<Parameter>, attributes: seq<Attribute>)

  /** A controller: its type name, the name of the assembly that defines it,
      and what `GetMethods` enumerates for its type. */
  datatype Controller = Controller(typeName: string, assemblyName: string, methods: seq<ActionMethod>)

  /** A site: the state a `WebSite` holds. `controllers` is the set handed to
      the controller-provider factory. */
  datatype Site = Site(
    name: string,
    portNumber: int,
    path: string,
    isDefault: bool,
    priority: Priority,
    controllers: seq<Controller>)

  datatype User = User(roles: set<string>)

  /** An incoming request. `webSite` is the back-reference a site sets before
      delegating; `None` stands for the null it holds until then. */
  datatype Request = Request(
    webSiteName: string,
    controllerName: string,
    controllerMethodName: string,
    httpMethod: string,
    urlValues: seq<string>,
    fields: map<string, string>,
    user: User,
    filePath: string,
    webSite: Option<Site>)

  /** What a view renders: `IViewResult`. */
  datatype View = View(content: string, contentType: string)

  /** The one terminal call made on the response for a request. */
  datatype Outcome =
    | Body(content: string, contentType: string)   // FromString
    | File(path: string)                           // FromFile
    | NotFound
    | NotAllowed
    | InternalError(cause: Exception)

  /** The collaborators whose behaviour is not modelled:
      - `culture`: the culture-dependent parsers behind `Convert.ToSingle`,
        `ToDouble`, `ToDecimal` and `ToDateTime`;
      - `invoke`: the body of an action method, called once reflection has
        accepted the arguments;
      - `render`: `site.ViewProvider.GetViewForRequest(request).Render(o)`;
      - `controllerFor`: the controller provider the factory builds from a
        site's controllers, `GetControllerForRequest`;
      - `combine` and `fileExists`: `Path.Combine` and `File.Exists`. */
  datatype Oracles = Oracles(
    culture: CultureParser,
    invoke: (Controller, ActionMethod, seq<Value>) -> Result<Value>,
    render: (Site, Request, Value) -> Result<View>,
    controllerFor: (seq<Controller>, Request) -> Option<Controller>,
    combine: (string, string) -> string,
    fileExists: string -> bool)
}

=== FILE: text.dfy ===
/** Ordinal string helpers: prefix and suffix tests, and trimming by a
    character class. */
module Text {

  /** `s.StartsWith(prefix)`, compared character by character. */
  function StartsWith(s: string, prefix: string): (b: bool)
    ensures b <==> |prefix| <= |s| && s[..|prefix|] == prefix
  {
    if |prefix| == 0 then true
    else if |s| == 0 || s[0] != prefix[0] then false
    else
      var b' := StartsWith(s[1..], prefix[1..]);
      assert |prefix| <= |s| ==> s[..|prefix|] == [s[0]] + s[1..][..|prefix| - 1];
      b'
  }

  /** `s.EndsWith(suffix)`, compared character by character from the end. */
  function EndsWith(s: string, suffix: string): (b: bool)
    ensures b <==> |suffix| <= |s| && s[|s| - |suffix|..] == suffix
  {
    if |suffix| == 0 then true
    else if |s| == 0 || s[|s| - 1] != suffix[|suffix| - 1] then false
    else
      var b' := EndsWith(s[..|s| - 1], suffix[..|suffix| - 1]);
      assert |suffix| <= |s| ==> s[|s| - |suffix|..] == s[..|s| - 1][|s| - |suffix|..] + [s[|s| - 1]];
      b'
  }

  /** The number of leading characters of `s` in the class `white`. */
  function LeadCount(s: string, white: char -> bool): (n: nat)
    ensures n <= |s|
    ensures forall i :: 0 <= i < n ==> white(s[i])
    ensures n < |s| ==> !white(s[n])
  {
    if |s| == 0 || !white(s[0]) then 0 else 1 + LeadCount(s[1..], white)
  }

  /** The number of trailing characters of `s` in the class `white`. */
  function TrailCount(s: string, white: char -> bool): (n: nat)
    ensures n <= |s|
    ensures forall i :: |s| - n <= i < |s| ==> white(s[i])
    ensures n < |s| ==> !white(s[|s| - 1 - n])
  {
    if |s| == 0 || !white(s[|s| - 1]) then 0 else 1 + TrailCount(s[..|s| - 1], white)
  }

  /** `s` with leading and then trailing characters of the class removed. */
  function Trim(s: string, white: char -> bool): (t: string)
    ensures |t| <= |s|
    ensures |t| > 0 ==> !white(t[0]) && !white(t[|t| - 1])
    ensures forall i :: 0 <= i < |t| ==> t[i] in s
  {
    var rest := s[LeadCount(s, white)..];
    rest[..|rest| - TrailCount(rest, white)]
  }

  /** Trimming leaves alone a string whose ends are outside the class. */
  lemma TrimKeepsTrimmed(s: string, white: char -> bool)
    requires |s| > 0 && !white(s[0]) && !white(s[|s| - 1])
    ensures Trim(s, white) == s
  {
    assert LeadCount(s, white) == 0;
    assert s[0..] == s;
    assert TrailCount(s, white) == 0;
  }
}

=== FILE: web_site.dfy ===
/** A web site: the controllers it owns, which requests it accepts, and how
    it answers one — through a controller, a static file, or `NotFound`. */
module WebSite {
  import opened Clr
  import opened Http
  import Text
  import Binder
  import ControllerBase

  /** The controller belongs to the site: its assembly name ends with the
      site name. */
  predicate Owned(c: Controller, name: string) {
    Text.EndsWith(c.assemblyName, name)
  }

  /** How many of `controllers` the site owns. */
  function OwnedCount(controllers: seq<Controller>, name: string): nat {
    if |controllers| == 0 then 0
    else (if Owned(controllers[0], name) then 1 else 0) + OwnedCount(controllers[1..], name)
  }

  /** `controllers.Where(c => assembly name EndsWith(name))`: the owned
      controllers, in their original order. */
  function OwnControllers(controllers: seq<Controller>, name: string): (owned: seq<Controller>)
    ensures |owned| == OwnedCount(controllers, name)
    ensures forall c :: c in owned ==> c in controllers && Owned(c, name)
    ensures forall c :: c in controllers && Owned(c, name) ==> c in owned
  {
    if |controllers| == 0 then []
    else
      var rest := OwnControllers(controllers[1..], name);
      assert forall c :: c in controllers <==> c == controllers[0] || c in controllers[1..];
      if Owned(controllers[0], name) then [controllers[0]] + rest else rest
  }

  /** The constructor: the site keeps its name, port and path, hands only the
      controllers it owns to the provider, is not the default site and has
      normal priority. */
  function New(controllers: seq<Controller>, name: string, portNumber: int, path: string): (s: Site)
    ensures s.name == name && s.portNumber == portNumber && s.path == path
    ensures !s.isDefault && s.priority == Normal
    ensures forall c :: c in s.controllers <==> c in controllers && Text.EndsWith(c.assemblyName, name)
    ensures |s.controllers| == OwnedCount(controllers, name)
  {
    Site(name, portNumber, path, false, Normal, OwnControllers(controllers, name))
  }

  /** `CanHandle`: the default site takes every request; any other site only
      the requests addressed to its name. */
  function CanHandle(s: Site, r: Request): (accepted: bool)
    ensures s.isDefault ==> accepted
    ensures !s.isDefault ==> (accepted <==> r.webSiteName == s.name)
  {
    s.isDefault || s.name == r.webSiteName
  }

  /** The request as the site hands it on: with its back-reference set. */
  function Bind(s: Site, r: Request): (bound: Request)
    ensures bound.webSite == Some(s)
    ensures bound.(webSite := r.webSite) == r
  {
    r.(webSite := Some(s))
  }

  /** `Handle`: delegate to the controller the provider picks; without one,
      serve the file at `Combine(path, FilePath)` when it exists and answer
      `NotFound` otherwise. */
  function Handle(s: Site, r: Request, o: Oracles): (out: Outcome)
    ensures o.controllerFor(s.controllers, Bind(s, r)).Some? ==>
      out == ControllerBase.Handle(o.controllerFor(s.controllers, Bind(s, r)).value, Bind(s, r), o)
    ensures o.controllerFor(s.controllers, Bind(s, r)).None? ==>
      (out.File? <==> o.fileExists(o.combine(s.path, r.filePath))) &&
      (out.File? ==> out.path == o.combine(s.path, r.filePath)) &&
      (!out.File? ==> out == NotFound)
  {
    var request := Bind(s, r);
    match o.controllerFor(s.controllers, request)
    case Some(controller) => ControllerBase.Handle(controller, request, o)
    case None =>
      var filePath := o.combine(s.path, request.filePath);
      if o.fileExists(filePath) then File(filePath) else NotFound
  }

  // ----- Properties of the constructor -----

  /** Owning distributes over concatenation, so the owned controllers keep
      their relative order: the filter is the order-preserving subsequence. */
  lemma {:induction false} OwnControllersAppend(a: seq<Controller>, b: seq<Controller>, name: string)
    ensures OwnControllers(a + b, name) == OwnControllers(a, name) + OwnControllers(b, name)
  {
    if |a| > 0 {
      assert (a + b)[1..] == a[1..] + b;
      OwnControllersAppend(a[1..], b, name);
    } else {
      assert a + b == b;
    }
  }

  /** A single controller is kept exactly when the site owns it. */
  lemma OwnControllersSingle(c: Controller, name: string)
    ensures OwnControllers([c], name) == if Text.EndsWith(c.assemblyName, name) then [c] else []
  {
    assert [c][1..] == [];
  }

  /** Filtering twice is filtering once. */
  lemma {:induction false} OwnControllersIdempotent(controllers: seq<Controller>, name: string)
    ensures OwnControllers(OwnControllers(controllers, name), name) == OwnControllers(controllers, name)
  {
    if |controllers| > 0 {
      var rest := OwnControllers(controllers[1..], name);
      OwnControllersIdempotent(controllers[1..], name);
      if Owned(controllers[0], name) {
        OwnControllersAppend([controllers[0]], rest, name);
        OwnControllersSingle(controllers[0], name);
      }
    }
  }

  /** Sites `Users` and `Admin` built from the same controllers split them by
      assembly name suffix, in order. */
  lemma OwnControllersExample()
    ensures
      var a := Controller("UsersController", "Demo.Users", []);
      var b := Controller("AdminController", "Demo.Admin", []);
      var c := Controller("ReportsController", "Demo.Users", []);
      && New([a, b, c], "Users", 8080, "www").controllers == [a, c]
      && New([a, b, c], "Admin", 8080, "www").controllers == [b]
  {
    var a := Controller("UsersController", "Demo.Users", []);
    var b := Controller("AdminController", "Demo.Admin", []);
    var c := Controller("ReportsController", "Demo.Users", []);
    var abc := [a, b, c];
    assert abc[1..] == [b, c] && abc[1..][1..] == [c] && abc[1..][1..][1..] == [];
    assert Owned(a, "Users") && Owned(c, "Users") && Owned(b, "Admin");
    assert !Owned(b, "Users") by {
      assert "Demo.Admin"[5..] != "Users";
    }
    assert !Owned(a, "Admin") && !Owned(c, "Admin") by {
      assert "Demo.Users"[5..] != "Admin";
    }
    assert OwnControllers([c], "Users") == [c];
    assert OwnControllers([b, c], "Users") == [c];
    assert OwnControllers([c], "Admin") == [];
    assert OwnControllers([b, c], "Admin") == [b];
  }

  // ----- Properties of site selection -----

  /** Acceptance does not pick one site: a request addressed to a site is
      accepted by that site and by the default site alike, and every site
      that accepts it is one of the two. */
  lemma DefaultAndNamedSiteOverlap(sites: seq<Site>, r: Request)
    ensures forall s :: s in sites && s.name == r.webSiteName ==> CanHandle(s, r)
    ensures forall s :: s in sites && s.isDefault ==> CanHandle(s, r)
    ensures forall s :: s in sites && CanHandle(s, r) ==> s.isDefault || s.name == r.webSiteName
  {
  }

  /** A freshly built site accepts exactly the requests addressed to its name. */
  lemma NewSiteAcceptsOnlyItsName(controllers: seq<Controller>, name: string, portNumber: int, path: string, r: Request)
    ensures CanHandle(New(controllers, name, portNumber, path), r) <==> r.webSiteName == name
  {
  }

  /** Selection reads nothing of the request but its site name. */
  lemma SelectionReadsOnlySiteName(s: Site, r: Request, r': Request)
    requires r.webSiteName == r'.webSiteName
    ensures CanHandle(s, r) <==> CanHandle(s, r')
  {
  }

  // ----- Properties of handling -----

  /** The back-reference is set before anything reads it: whatever the
      request held before, the outcome is the same. */
  lemma BackReferenceBeforeDelegation(s: Site, r: Request, w: Option<Site>, o: Oracles)
    ensures Handle(s, r, o) == Handle(s, r.(webSite := w), o)
  {
    assert Bind(s, r) == Bind(s, r.(webSite := w));
  }

  /** When a controller is found the file system is never consulted: the
      outcome does not depend on `Combine` or `Exists`. */
  lemma ControllerFoundSkipsFileLookup(
    s: Site, r: Request, o: Oracles, combine: (string, string) -> string, fileExists: string -> bool)
    requires o.controllerFor(s.controllers, Bind(s, r)).Some?
    ensures Handle(s, r, o) == Handle(s, r, o.(combine := combine, fileExists := fileExists))
  {
    var c := o.controllerFor(s.controllers, Bind(s, r)).value;
    var o' := o.(combine := combine, fileExists := fileExists);
    ControllerBase.HandleIgnoresFileSystem(c, Bind(s, r), o, o');
  }

  /** Without a controller the outcome is a file or `NotFound`, never a
      rendered body, a refusal or an error, and neither actions nor views
      are involved. */
  lemma NoControllerServesFileOrNotFound(s: Site, r: Request, o: Oracles, o': Oracles)
    requires o.controllerFor(s.controllers, Bind(s, r)).None?
    requires o'.controllerFor == o.controllerFor && o'.combine == o.combine && o'.fileExists == o.fileExists
    ensures Handle(s, r, o).File? || Handle(s, r, o) == NotFound
    ensures Handle(s, r, o) == Handle(s, r, o')
  {
  }

  /** Through a site, a found controller sees the site: an authorized action
      that binds and runs renders with the site's view, and the outcome is
      that view's body. */
  lemma DelegatedActionRenders(s: Site, r: Request, o: Oracles, i: nat)
    requires o.controllerFor(s.controllers, Bind(s, r)).Some?
    requires
      var c := o.controllerFor(s.controllers, Bind(s, r)).value;
      && ControllerBase.FirstMatch(c.methods, Bind(s, r), i)
      && ControllerBase.UserAuthorized(c.methods[i], r.user)
    ensures
      var c := o.controllerFor(s.controllers, Bind(s, r)).value;
      var m := c.methods[i];
      var args := Binder.GetParametersFromRequest(m, Bind(s, r), o.culture);
      args.Ok? && ControllerBase.Invoke(c, m, args.value, o).Ok? &&
      o.render(s, Bind(s, r), ControllerBase.Invoke(c, m, args.value, o).value).Ok? ==>
        var view := o.render(s, Bind(s, r), ControllerBase.Invoke(c, m, args.value, o).value).value;
        Handle(s, r, o) == Body(view.content, view.contentType)
  {
    var c := o.controllerFor(s.controllers, Bind(s, r)).value;
    var found := ControllerBase.FindAction(c.methods, Bind(s, r));
    ControllerBase.FirstMatchUnique(c.methods, Bind(s, r), found.value, i);
  }
}
